=== FILE: README.md ===
# Saudi moderator bot — a Dafny model of its moderation core

This project models the part of the Telegram moderation bot that decides. The bot has two entry points.

- **The learning bot** (`src/bot.js`) works in two phases.
  - Until 1000 examples are labelled, it forwards every message from its watched chats to a moderator. The prompt carries "yes" and "no" buttons.
  - Each answer becomes a labelled training example, upserted by message id.
  - Once the goal is reached, a neural network scores each message. When moderation is switched on, the bot deletes messages that score below 0.5 or hold a link or mention (`isLinkPresent`, `src/utils.js`).
  - Commands set the admin, the moderator, the group and the moderation switch.
- **The root bot** (`bot.js`) checks each message from its target group or from a private chat.
  - A link or a username (`contains-links-or-username.js`) makes the message prohibited.
  - Otherwise, a cosine similarity below 0.5 with a fixed Russian reference text (`cosine-similarity.js`) makes it dissimilar.
  - Otherwise, it conforms.

The modules:

| module | models |
|---|---|
| `Text` | JavaScript's `\s` and `\w`, ASCII case folding, `split` on one character, `replace` of the first occurrence, decimal strings |
| `LinkDetector` | `containsLinksOrUsernames`. Each regular expression is the condition for a match at a position; `test` means "at some position". |
| `LinkPresence` | `isLinkPresent`, and how it differs from the other detector |
| `Tokenizer` | `tokenize`: lower-case, delete `[^\w\s]`, split on `\s+` |
| `Vectors` | sums over word lists, the dot product, Cauchy–Schwarz, permutation invariance of sums |
| `Cosine` | `cosineSimilarity` with plain integer counts |
| `CosineAsWritten` | `cosineSimilarity` with its frequency maps as JavaScript objects that inherit from `Object.prototype` (see Findings) |
| `CosineLaws` | symmetry, identity, disjointness and range of the similarity |
| `TrainingStore` | `trainingData`, `trainingCount`, `loadTrainingData`, `addOrUpdateTrainingData` |
| `ModerationBot` | the settings database, the commands, the review prompt and its buttons, the `callback_query` and `message` handlers of `src/bot.js` |
| `RootBot` | the routing and `handleMessage` of `bot.js` |

**Similarity values.** A similarity is kept in squared form, as a dot product and two squared magnitudes. `Cosine.IsValue` fixes the real value. `Cosine.BelowHalf` decides `similarity < 0.5` on integers, as `4·dot² < norm1·norm2`, where `norm1` and `norm2` are the squared magnitudes. `Cosine.ThresholdInSquaredForm` proves the two readings agree.

**How the learning bot behaves.**
- Examples are keyed by message id alone, without the chat. The bot watches two chats, and Telegram numbers messages per chat. A group message and a moderator-chat message with the same number therefore get the same buttons and the same key, and the later answer replaces the earlier label.
- The moderation switch is a string. `/moderate` stores only `yes` or `no`, and only `yes` turns deletion on.
- Once the count is at or past the goal, every labelled answer whose Telegram calls go through trains the network again.
- An answer to an old prompt still updates the store, however late it comes.
- The `group` stored by `/group` is not used for routing. The learning bot watches the chats named by the `GROUP_ID` and `MODERATOR_CHAT_ID` settings of its environment.
- The network is trained only when an answer arrives at or past the goal, and it is not saved. After a restart past the goal it cannot score, and nothing is deleted (see Findings).

## Model

| member | source | states |
|---|---|---|
| LinkDetector.ContainsLinksOrUsernames | contains-links-or-username.js:1-16 | `hasLink` holds exactly when one of the four link alternatives matches somewhere, and `hasUsername` exactly when `@` is followed by an ASCII word character; `contains` is their disjunction |
| LinkDetector.SchemeIsLink | contains-links-or-username.js:3 | `http://` or `https://` in any letter case, followed by a non-space character, is a link wherever it stands |
| LinkDetector.WwwIsLink | contains-links-or-username.js:3 | `www.` in any case, followed by a non-space character, is a link |
| LinkDetector.DomainIsLink | contains-links-or-username.js:3 | `.com` or `.ru` right after a non-space character is a link, whatever follows |
| LinkDetector.NoBoundaryAfterDomain | contains-links-or-username.js:3 | there is no word boundary after the suffix: `x.community` is a link |
| LinkDetector.DocumentedExample | contains-links-or-username.js:21-26 | the commented example sentence, split around its scheme, sets all three flags |
| LinkDetector.EmptyText | contains-links-or-username.js:8-15 | the empty text sets no flag |
| LinkDetector.CaseInsensitive | contains-links-or-username.js:3-5 | upper-casing ASCII letters does not change the report |
| LinkDetector.NoWordCharsNothingFound | contains-links-or-username.js:3-5 | every alternative needs an ASCII word character, so text without one (Cyrillic text) is clean |
| LinkDetector.NoMarkersNothingFound | contains-links-or-username.js:3-5 | every alternative needs `:`, `.` or `@`, so text without them is clean |
| LinkPresence.IsLinkPresent | src/utils.js:2-5 | true exactly when `http://`, `https://`, `www.`, `t.me` or `wa.me` (any case) starts somewhere, or `@` is followed by a word character |
| LinkPresence.PrefixIsPresent | src/utils.js:3 | each of the five prefixes, in any case and with nothing required after it, is enough |
| LinkPresence.BarePrefixes | src/utils.js:3 | a bare `http://` or `www.` counts here but is not a link for `containsLinksOrUsernames` |
| LinkPresence.UsernameIsPresent | src/utils.js:3 | a username for the other detector is always a mention here |
| LinkPresence.SchemeOrWwwIsPresent | src/utils.js:3 | a scheme or `www.` link of the other detector is always present here |
| LinkPresence.AbsentMeansOnlyDomains | src/utils.js:3 | on text this detector passes, the other fires exactly when it finds a `.com`/`.ru` domain |
| LinkPresence.DomainNotPresent | src/utils.js:3 | the converse fails: `x.com` is a link for the other detector only |
| LinkPresence.CaseInsensitive | src/utils.js:3 | the `i` flag: upper-casing ASCII letters does not change the result |
| Text.LowerAscii | cosine-similarity.js:5 | same length; every ASCII capital becomes its small letter, no ASCII capital remains, and every other character (Cyrillic included) is kept as it is |
| Tokenizer.StripPunctuation | cosine-similarity.js:6 | only `\w` and `\s` characters remain, each taken from the text |
| Tokenizer.StripConcat | cosine-similarity.js:6 | deleting characters works piece by piece: the kept characters stay in the order of the text |
| Tokenizer.StripCounts | cosine-similarity.js:6 | each `\w` or `\s` character stays exactly as often as it occurs; every other character is gone |
| Tokenizer.SplitWhitespace | cosine-similarity.js:7 | the pieces have no whitespace and spell the text without its whitespace; the first (last) piece is empty exactly when the text is empty or starts (ends) with whitespace; no inner piece is empty |
| Tokenizer.SplitRuns | cosine-similarity.js:7 | the split cuts exactly at the whitespace runs, of any `\s` characters and any length: the words come back as they were, with one empty piece first when whitespace leads the text and one empty piece last when whitespace ends it |
| Tokenizer.SplitJoinWords | cosine-similarity.js:7 | non-empty words without whitespace, joined by single spaces, split back into exactly those words |
| Tokenizer.Tokenize | cosine-similarity.js:3-8 | at least one token, all made of lower-case ASCII `\w` characters |
| Tokenizer.SplitOfWhitespace | cosine-similarity.js:7 | whitespace alone splits into `[""]` when empty and `["", ""]` otherwise |
| Tokenizer.NoWordCharsCollapse | cosine-similarity.js:3-8 | text without ASCII word characters tokenizes to `["", ""]` when it has whitespace and to `[""]` otherwise |
| Tokenizer.TokenizeWord | cosine-similarity.js:3-8 | a word of token characters is its own single token |
| Tokenizer.TokenizeSpaceThenWord | cosine-similarity.js:3-8 | a leading space adds an empty first token |
| Cosine.TermFrequency | cosine-similarity.js:11-17 | the keys are the distinct tokens, and each count is the number of occurrences |
| Cosine.CountsSumToLength | cosine-similarity.js:11-17 | the counts add up to the number of tokens |
| Cosine.CreateVectorSpace | cosine-similarity.js:20-31 | one entry per word of either map, each word once; entry `i` is each map's count of word `i` |
| Cosine.VectorDot | cosine-similarity.js:34-36 | the dot product of two count vectors is the sum over words of the count products |
| Vectors.Dedup | cosine-similarity.js:21 | the `Set` holds each word once, and exactly the words of either map |
| Vectors.DedupOfDistinct | cosine-similarity.js:21 | values that are already distinct go into the `Set` unchanged and in their own order |
| Vectors.Dot | cosine-similarity.js:34-36 | count vectors (no negative entry) have a non-negative dot product, and vectors never both non-zero at one index have dot product 0 |
| Vectors.SumOfSquares | cosine-similarity.js:39-41 | the squared magnitude is never negative, and it is 0 exactly when every entry is 0 |
| Vectors.DotSelf | cosine-similarity.js:34-41 | a vector's dot product with itself is its squared magnitude |
| Vectors.DotSymmetric | cosine-similarity.js:34-36 | the dot product does not depend on the order of its arguments |
| Vectors.CauchySchwarz | cosine-similarity.js:34-41 | the squared dot product is at most the product of the squared magnitudes |
| Vectors.SumByPermutation | cosine-similarity.js:20-31 | a sum over distinct words does not depend on their order (the insertion order of the `Set`) |
| Cosine.Compare | cosine-similarity.js:44-57 | for non-empty token lists the zero guard never fires; the dot product is non-negative and bounded by Cauchy–Schwarz |
| Cosine.CosineSimilarity | cosine-similarity.js:1-58 | the same for two texts, since every text has at least one token |
| Cosine.ThresholdInSquaredForm | bot.js:52 | four times the squared dot product is below the product of the squared magnitudes exactly when the real value is below 0.5 |
| Cosine.ValueInUnitInterval | cosine-similarity.js:57 | a value that satisfies Cauchy–Schwarz lies in [0, 1] |
| CosineLaws.CompareSymmetric | cosine-similarity.js:20-57 | swapping two token lists keeps the dot product and swaps the squared magnitudes |
| CosineLaws.CompareIdentical | cosine-similarity.js:20-57 | a token list compared with itself has equal dot product and squared magnitudes |
| CosineLaws.CompareDisjoint | cosine-similarity.js:20-57 | token lists without a common token have dot product 0 |
| CosineLaws.Symmetric | cosine-similarity.js:1-58 | swapping the texts keeps the dot product and swaps the magnitudes |
| CosineLaws.BelowHalfSymmetric | cosine-similarity.js:1-58 | being below 0.5 does not depend on argument order |
| CosineLaws.Identical | cosine-similarity.js:1-58 | a text compared with itself has value 1 |
| CosineLaws.Disjoint | cosine-similarity.js:1-58 | texts without a common token have value 0 |
| CosineLaws.InUnitInterval | cosine-similarity.js:57 | every value lies in [0, 1] |
| CosineAsWritten.CosineSimilarity | cosine-similarity.js:57 | the `magnitude1 && magnitude2` guard: a ratio comes only with two non-zero squared magnitudes, otherwise the value is 0; `AgreesWithCorrected` ties the whole value to `Cosine.CosineSimilarity` |
| CosineAsWritten.TermFrequency | cosine-similarity.js:11-17 | every token but `__proto__` becomes an own key; `constructor` holds a non-number; every other key holds its count |
| CosineAsWritten.FromVectors | cosine-similarity.js:50-57 | the guard passes exactly when both squared magnitudes are non-zero numbers, that is when every entry is a number |
| CosineAsWritten.PlainTermFrequency | cosine-similarity.js:11-17 | without the two inherited names, the object has the plain keys and counts |
| CosineAsWritten.AgreesWithCorrected | cosine-similarity.js:1-58 | without `constructor` or `__proto__` tokens, the similarity as written equals `Cosine.CosineSimilarity` |
| CosineAsWritten.ConstructorGivesZero | cosine-similarity.js:14 | a `constructor` token in either text makes the result 0 |
| CosineAsWritten.ProtoIgnored | cosine-similarity.js:14 | `__proto__` tokens leave the frequency object as if they were absent |
| CosineAsWritten.ConstructorNotSimilarToItself | cosine-similarity.js:12-14 | `constructor` compared with itself gives 0 |
| CosineAsWritten.ProtoNotSimilarToItself | cosine-similarity.js:14 | `__proto__` compared with itself gives 0 |
| TrainingStore.Load | src/bot.js:22-34 | the parsed array, or nothing; the counter starts at the length |
| TrainingStore.FindIndex | src/bot.js:76-78 | -1 exactly when no record has the id; otherwise the first record with it |
| TrainingStore.Upsert | src/bot.js:75-88 | an existing id is replaced in place and the count kept; a new id is appended and counted; the counter stays equal to the length |
| TrainingStore.UpsertUnique | src/bot.js:75-88 | distinct ids stay distinct, and the new record is in the store |
| TrainingStore.SecondUpsertWins | src/bot.js:80-81 | two upserts of one id equal the second alone |
| TrainingStore.CountedAlways | src/bot.js:95 | after loading and any run of upserts the counter equals the number of records and grows by at most one per upsert |
| Text.SplitOn | src/bot.js:274 | `split` on one character: at least one piece, no piece holds the separator, and the pieces joined by the separator give back the text |
| Text.RemoveFirst | src/bot.js:277-280 | `replace` with a string pattern: a text without the pattern is unchanged, and one with it loses exactly the pattern's length |
| Text.RemoveFirstAt | src/bot.js:277-280 | only the first occurrence goes: when the pattern first occurs right after `a`, the text `a + pattern + b` becomes `a + b` |
| Text.SplitPieces | src/bot.js:183 | a split on one character has a second piece exactly when the character occurs; the first piece runs up to it, the second from just after it to the next occurrence or the end |
| ModerationBot.IsAdmin | src/bot.js:99 | strict equality: with no admin stored nobody is admin; otherwise exactly the sender with the stored id is |
| ModerationBot.IsModerator | src/bot.js:100 | the same against the stored moderator |
| ModerationBot.Trained | src/bot.js:308 | the `>=` gate shared with the message handler (line 337): trained exactly when the `remaining` count an answer reports is zero or below, so the goal itself already counts |
| ModerationBot.Argument | src/bot.js:183 | a second word exists exactly when the text has a space; it is the text from just after the first space up to the next space or the end |
| ModerationBot.ArgumentIsSplit | src/bot.js:183 | the argument is the second piece of the split on spaces, and absent when there is none |
| ModerationBot.Execute | src/bot.js:145-235 | with no database nothing changes. Otherwise the database changes only in four cases, and in each only the named field changes: `/start` with no admin set makes the sender admin and moderator; `/moderator n` from the admin sets the moderator to n; `/group n` from the admin sets the group to n; `/moderate yes` or `/moderate no` from staff sets the switch to that word. |
| ModerationBot.ModerateArgument | src/bot.js:223-227 | `/moderate yes` and `/moderate no` carry their word |
| ModerationBot.StartAppoints | src/bot.js:149-157 | the first `/start` makes the sender admin and moderator and keeps the rest |
| ModerationBot.AdminIsPermanent | src/bot.js:145-214 | once an admin is set, no command changes it, and only the admin changes the group |
| ModerationBot.ModerateStaysValid | src/bot.js:216-235 | from the initial database, the switch is always `yes` or `no` |
| ModerationBot.Appropriate | src/bot.js:285 | label 1 exactly for approve and 0 exactly for reject |
| ModerationBot.ParseCallback | src/bot.js:274 | the action has no colon; there is an id exactly when the data has a colon; action, colon and id begin the data, and the id ends at the next colon or the end |
| ModerationBot.ParseCallbackIsSplit | src/bot.js:274 | the action and the id are the first two pieces of the split on `:` |
| ModerationBot.ParseAction | src/bot.js:276 | only `approve` and `reject` are actions |
| ModerationBot.CallbackRoundTrip | src/bot.js:274-276 | the data of a button parses back to its action and id |
| ModerationBot.Keyboard | src/bot.js:288-303 | both buttons carry `action:id`; only the chosen one is ticked |
| ModerationBot.PromptRoundTrip | src/bot.js:277-280 | removing the header from a prompt gives back the message text |
| ModerationBot.OnAnswer | src/bot.js:267-319 | an answer labels an example exactly when the database loaded, the sender is staff and the action is known. The example goes to the store under the parsed id, with the prompt text minus its header and the action's label, even when a later Telegram call fails. The reply gives the count still missing. Training happens exactly when the count is at or past the goal and the edit, the answer and the notice all went through. |
| ModerationBot.TrainingRepeats | src/bot.js:288-314 | at or past the goal, a labelled answer trains again exactly when its Telegram calls went through |
| ModerationBot.RepeatedAnswer | src/bot.js:282-303 | pressing the same button again leaves the store, the count and the buttons as they were, so the edit it asks for is unchanged |
| ModerationBot.OnMessage | src/bot.js:322-363 | unwatched chats are ignored. Before the goal every message goes to the moderator with its text and buttons for its id. After it, a message is deleted and its author notified exactly when moderation is on and the score is below 0.5 or a link is present. |
| ModerationBot.Judge | src/bot.js:343-355 | a trained bot either deletes or keeps; it deletes exactly when the message is inappropriate (low score or a link) and moderation is `yes`, and then deletes this message and notifies its sender |
| ModerationBot.Review | src/bot.js:107-129 | the prompt goes to the stored moderator, removing the header from it gives back the message text, and both buttons carry the message's id, unticked |
| ModerationBot.OnMessageAsWritten | src/bot.js:322-363 | with a trained network, the handler is `OnMessage` with the network's score. Without one, past the goal in a watched chat, the message is kept. Nothing is deleted without a network. |
| ModerationBot.MentionKeptAfterRestart | src/bot.js:337-346 | after a restart past the goal, a message with a mention is kept with moderation on, where a runnable network would have it deleted |
| ModerationBot.NoDeletionWhenOff | src/bot.js:343-346 | with moderation off, nothing is deleted |
| ModerationBot.ModerateIrrelevantWhileLearning | src/bot.js:337-359 | before the goal, the switch makes no difference |
| ModerationBot.MentionDeleted | src/bot.js:343-355 | once trained and switched on, a message with a mention is deleted whatever the score |
| ModerationBot.BareDomainLeftToScore | src/bot.js:343-346 | `x.com` is left to the network |
| ModerationBot.ReviewsCollide | src/bot.js:107-129 | messages with the same number in the two watched chats get the same buttons, and answering both prompts leaves only the second label in the store |
| ModerationBot.ReviewThenAnswer | src/bot.js:107-129 | a message sent for review and then answered from its prompt by a moderator or the admin is stored under its id, with its text and the label of the answer |
| RootBot.Route | bot.js:15-34 | a message is handled exactly when it comes from the target group (group or supergroup) or from a private chat |
| RootBot.Judge | bot.js:37-62 | prohibited exactly when the report says so, with its flags; otherwise dissimilar exactly when below 0.5; otherwise conforming |
| RootBot.HandleMessage | bot.js:37-62 | prohibited exactly when the detector reports a link or username, carrying its flags; otherwise dissimilar, carrying the similarity to the reference text, exactly when it is below 0.5 |
| RootBot.HandleMessageAsWritten | bot.js:37-62 | prohibited exactly when the detector reports a link or username, carrying its `hasLink` and `hasUsername` flags; otherwise dissimilar, carrying the similarity as written, exactly when it is below 0.5 |
| RootBot.ReferenceHasNoWordChars | bot.js:12 | the reference text has no ASCII word character, and it has a space |
| RootBot.ReferenceTokens | bot.js:12 | the reference text tokenizes to two empty tokens |
| RootBot.NoAsciiWordsConforms | bot.js:51-58 | a message without ASCII letters, digits or `_` always conforms |
| RootBot.AllWordsDissimilar | bot.js:51-58 | a clean message whose tokens are all non-empty is always dissimilar |
| RootBot.LeadingSpaceFlipsVerdict | bot.js:51-58 | a single word is dissimilar, and the same word after a space conforms |
| RootBot.ConstructorMessage | bot.js:51-58 | " constructor" conforms, but as written it is called dissimilar with similarity 0 |

## Left out

- Telegram transport: Telegraf's handler registration, the `privateChatMiddleware` chaining, replies and message edits. Replies are returned as values.
- The neural network (brain.js). Its `run` is the parameter `score` of `ModerationBot.OnMessage`, or the optional `network` of `ModerationBot.OnMessageAsWritten`; its `train` is the flag `train` of a labelled answer.
- File I/O: reading and writing `trainingData.json` and `database.json`, and JSON parsing. `Load` takes the parsed array or nothing. A failed database load is modelled as "no database".
- Logging (`winston`, `console`) and the bot's launch and shutdown.
- Floating point: square roots, the division and `toFixed`. Similarities are compared with 0.5 exactly, in squared integer form.
- `toLowerCase` beyond ASCII. Non-ASCII letters cannot survive `[^\w\s]`, with two exceptions. The Kelvin sign lower-cases to `k`. U+0130 lower-cases to `i` followed by the combining dot U+0307, and `[^\w\s]` then deletes the dot. The model keeps both characters as they are, so `[^\w\s]` deletes them.
- `parseInt`: the `/moderator` and `/group` arguments are given already parsed, as `Option<int>` with `None` for `NaN`.
- `/help` and the texts of the replies.
- A message without text. `message.text` is `undefined` there, and `isLinkPresent(undefined)` tests the string "undefined".
- `Object.keys` lists integer-like keys first. The key order is taken as insertion order. Sums do not depend on it (`Vectors.SumByPermutation`).
- `Number(...)` of the environment settings: given as `Option<int>`.
- The username text of the deletion notice.
- ModerationBot.OnAnswer: answers are handled one at a time. In the source, `trainingCount` is read again after the awaited edit and answer (src/bot.js:288-308), so an answer handled in between can change the count this answer reports and tests.
- ModerationBot.TrainingRepeats: whether the Telegram calls go through is the parameter `delivered`. The model does not derive it. Telegram refuses an edit that changes nothing, which is what a second press of the ticked button asks for (`ModerationBot.RepeatedAnswer`), so such a press stores but does not train.
- ModerationBot.OnMessage: the notice's recipient is the author's id, but the text of the notice is not modelled.
- ModerationBot.ReviewThenAnswer: the prompt text the answer handler reads as `ctx.callbackQuery.message.text` is taken to be the prompt exactly as sent. Telegram may trim it, for instance the header's trailing blank line when the message text is empty, and then the stored text differs. The same holds for `ModerationBot.ReviewsCollide`.
- CosineAsWritten.CosineSimilarity: its own contract states only the zero guard. Its value is pinned down by the lemmas about it: `CosineAsWritten.AgreesWithCorrected`, `CosineAsWritten.ConstructorGivesZero` and `CosineAsWritten.ProtoIgnored`.

## Findings

| source | as written | input that shows it | evidently intended | confidence | as-written member | corrected member |
|---|---|---|---|---|---|---|
| cosine-similarity.js:12-14 | `const freqMap = {}` inherits from `Object.prototype`. For the token `constructor`, the lookup `freqMap[token]` finds the inherited `Object` function, so the count becomes a string and both magnitudes become `NaN`; the guard then returns 0. For `__proto__`, the assignment goes to a setter that ignores it, so the token drops out. | `cosineSimilarity("constructor", "constructor")` is 0. `handleMessage(" constructor")` reports the message as dissimilar with similarity 0, though its similarity with the reference is 1/√2 and it conforms. | a dictionary without a prototype, holding plain counts | not executed | CosineAsWritten.ConstructorGivesZero | Cosine.CosineSimilarity |
| src/bot.js:337-346 | The network is trained only at src/bot.js:313, when an answer arrives at or past the goal, and it is never saved. After a restart with at least 1000 stored examples, `net.run` at :339 runs on an untrained network and throws before `isLinkPresent` is evaluated. The catch at :360 logs the error. | A restart with 1000 stored examples and moderation on, then the message `@spam` in the group: it is kept, and so is every later message until a moderator answers a prompt. | a runnable network once the goal is reached, or the link check applied without one, so links and mentions are deleted | not executed | ModerationBot.MentionKeptAfterRestart | ModerationBot.MentionDeleted |

=== FILE: cosine.dfy ===
/**
 `cosineSimilarity` of cosine-similarity.js over the integer counts it works with.
 The square roots and the division are not computed: a similarity is kept as its
 dot product and the two squared magnitudes, from which the real value is fixed
 (see `IsValue`) and compared with 0.5 exactly (see `BelowHalf`).

 Frequency maps here hold plain counts. The source's maps are objects inheriting
 from `Object.prototype`, which makes two tokens misbehave; module CosineAsWritten
 models that and relates it to this definition.
 */
module Cosine {
  import opened Tokenizer
  import opened Vectors

  /** A JavaScript object used as a dictionary: its keys in insertion order, and their counts. */
  datatype FrequencyMap = FrequencyMap(keys: seq<string>, counts: map<string, nat>)

  /** `freqMap[word] || 0`. */
  function Count(f: FrequencyMap, w: string): nat
  {
    if w in f.counts then f.counts[w] else 0
  }

  /** `termFrequency`: the count of each token is the number of times it occurs. */
  function TermFrequency(tokens: seq<string>): (f: FrequencyMap)
    ensures Distinct(f.keys)
    ensures forall w :: w in f.keys <==> w in tokens
    ensures forall w :: w in f.counts <==> w in tokens
    ensures forall w :: Count(f, w) == multiset(tokens)[w]
  {
    if |tokens| == 0 then FrequencyMap([], map[])
    else
      var init := tokens[..|tokens| - 1];
      var t := tokens[|tokens| - 1];
      assert tokens == init + [t];
      var f := TermFrequency(init);
      var keys := if t in f.counts then f.keys else f.keys + [t];
      FrequencyMap(keys, f.counts[t := Count(f, t) + 1])
  }

  function Counter(f: FrequencyMap): string -> int
  {
    w => Count(f, w)
  }

  function Product(f: FrequencyMap, g: FrequencyMap): string -> int
  {
    w => Count(f, w) * Count(g, w)
  }

  /** The counts of a frequency map add up to the number of tokens it was built from. */
  lemma {:induction false} CountsSumToLength(tokens: seq<string>)
    ensures SumBy(TermFrequency(tokens).keys, Counter(TermFrequency(tokens))) == |tokens|
    decreases |tokens|
  {
    if |tokens| > 0 {
      var init := tokens[..|tokens| - 1];
      CountsSumToLength(init);
      CountsSumStep(TermFrequency(init), tokens[|tokens| - 1]);
    }
  }

  /** `freqMap[t] = (freqMap[t] || 0) + 1` adds one to the sum of the counts. */
  lemma CountsSumStep(f: FrequencyMap, t: string)
    requires Distinct(f.keys)
    requires forall w :: w in f.keys <==> w in f.counts
    ensures var g := FrequencyMap(if t in f.counts then f.keys else f.keys + [t], f.counts[t := Count(f, t) + 1]);
            SumBy(g.keys, Counter(g)) == SumBy(f.keys, Counter(f)) + 1
  {
    var g := FrequencyMap(if t in f.counts then f.keys else f.keys + [t], f.counts[t := Count(f, t) + 1]);
    assert forall w :: w != t ==> Counter(g)(w) == Counter(f)(w);
    assert Counter(g)(t) == Counter(f)(t) + 1;
    if t in f.counts {
      var k :| 0 <= k < |f.keys| && f.keys[k] == t;
      SumByBump(f.keys, k, Counter(f), Counter(g));
    } else {
      SumByPointwise(f.keys, Counter(g), Counter(f));
      assert g.keys[..|g.keys| - 1] == f.keys;
    }
  }

  /** The two count vectors over the union of the words of both maps. */
  datatype VectorSpace = VectorSpace(words: seq<string>, vector1: seq<int>, vector2: seq<int>)

  /** `freqMap[word] || 0` for every word, in order. */
  function Vector(f: FrequencyMap, words: seq<string>): (v: seq<int>)
    ensures |v| == |words|
    ensures forall i :: 0 <= i < |words| ==> v[i] == Count(f, words[i])
  {
    seq(|words|, i requires 0 <= i < |words| => Count(f, words[i]))
  }

  /**
   `createVectorSpace`: one entry per word of either map, each word once, in the
   insertion order of `new Set([...Object.keys(freqMap1), ...Object.keys(freqMap2)])`.
   */
  function CreateVectorSpace(f1: FrequencyMap, f2: FrequencyMap): (vs: VectorSpace)
    ensures |vs.vector1| == |vs.vector2| == |vs.words|
    ensures Distinct(vs.words)
    ensures forall w :: w in vs.words <==> w in f1.keys || w in f2.keys
    ensures forall i :: 0 <= i < |vs.words| ==>
              vs.vector1[i] == Count(f1, vs.words[i]) && vs.vector2[i] == Count(f2, vs.words[i])
  {
    var words := Dedup(f1.keys + f2.keys);
    VectorSpace(words, Vector(f1, words), Vector(f2, words))
  }

  /** The dot product of two count vectors is the sum, over the words, of the products of counts. */
  lemma {:induction false} VectorDot(words: seq<string>, f: FrequencyMap, g: FrequencyMap)
    ensures Dot(Vector(f, words), Vector(g, words)) == SumBy(words, Product(f, g))
    decreases |words|
  {
    if |words| > 0 {
      var init := words[..|words| - 1];
      assert Vector(f, words)[..|words| - 1] == Vector(f, init);
      assert Vector(g, words)[..|words| - 1] == Vector(g, init);
      VectorDot(init, f, g);
    }
  }

  /** A similarity: the dot product and the two squared magnitudes, or 0 from the zero guard. */
  datatype Similarity = Ratio(dot: int, norm1: int, norm2: int) | Zero

  /** `magnitude1 && magnitude2 ? dotProd / (magnitude1 * magnitude2) : 0`; a magnitude is 0 exactly when its square is. */
  function Guard(dot: int, norm1: int, norm2: int): Similarity
  {
    if norm1 == 0 || norm2 == 0 then Zero else Ratio(dot, norm1, norm2)
  }

  /**
   The real number `v` is the value of the similarity: 0 for the guard, and otherwise
   `dot / (sqrt(norm1) * sqrt(norm2))`, that is the non-negative root of
   `v² · norm1 · norm2 = dot²`.
   */
  ghost predicate IsValue(s: Similarity, v: real)
  {
    match s
    case Zero => v == 0.0
    case Ratio(d, n1, n2) => 0.0 <= v && v * v * ((n1 * n2) as real) == (d * d) as real
  }

  /** `similarity < 0.5`, decided on the integers: `4·dot² < norm1·norm2`. */
  predicate BelowHalf(s: Similarity)
  {
    match s
    case Zero => true
    case Ratio(d, n1, n2) => 4 * (d * d) < n1 * n2
  }

  /** For `v >= 0` with `v²·P = D` and `P > 0`: `v < 0.5` exactly when `4·D < P`. */
  lemma HalfInSquares(v: real, P: real, D: real)
    requires 0.0 <= v && 0.0 < P && v * v * P == D
    ensures v < 0.5 <==> 4.0 * D < P
  {
    if v < 0.5 {
      assert v * v <= v * 0.5;
      assert v * v < 0.25;
      assert v * v * P < 0.25 * P;
    } else {
      assert v * v >= 0.5 * v;
      assert v * v >= 0.25;
      assert v * v * P >= 0.25 * P;
    }
  }

  /** The squared comparison is the comparison of the real value with 0.5. */
  lemma ThresholdInSquaredForm(s: Similarity, v: real)
    requires IsValue(s, v)
    requires s.Ratio? ==> 0 <= s.dot && 0 < s.norm1 * s.norm2
    ensures BelowHalf(s) <==> v < 0.5
  {
    if s.Ratio? {
      var P := (s.norm1 * s.norm2) as real;
      var D := (s.dot * s.dot) as real;
      assert 0.0 < P;
      HalfInSquares(v, P, D);
      assert (4 * (s.dot * s.dot)) as real == 4.0 * D;
    }
  }

  /** Cauchy-Schwarz puts the value in [0, 1]. */
  lemma ValueInUnitInterval(s: Similarity, v: real)
    requires IsValue(s, v)
    requires s.Ratio? ==> 0 < s.norm1 * s.norm2 && s.dot * s.dot <= s.norm1 * s.norm2
    ensures 0.0 <= v <= 1.0
  {
    if s.Ratio? && v > 1.0 {
      var P := (s.norm1 * s.norm2) as real;
      assert v * v > 1.0 by {
        assert v * v > v * 1.0;
      }
      assert v * v * P > P;
    }
  }

  /**
   The similarity of two token lists. Every list produced by `tokenize` has at least one
   token, so both squared magnitudes are at least 1 and the zero guard never fires;
   Cauchy-Schwarz bounds the dot product.
   */
  function Compare(tokens1: seq<string>, tokens2: seq<string>): (s: Similarity)
    requires |tokens1| >= 1 && |tokens2| >= 1
    ensures s.Ratio? && s.norm1 >= 1 && s.norm2 >= 1
    ensures 0 <= s.dot && s.dot * s.dot <= s.norm1 * s.norm2
  {
    var f1 := TermFrequency(tokens1);
    var f2 := TermFrequency(tokens2);
    var vs := CreateVectorSpace(f1, f2);
    var dot := Dot(vs.vector1, vs.vector2);
    var norm1 := SumOfSquares(vs.vector1);
    var norm2 := SumOfSquares(vs.vector2);
    CauchySchwarz(vs.vector1, vs.vector2);
    DotProperties(vs.words, f1, f2);
    NormAtLeastOne(tokens1, vs.words);
    NormAtLeastOne(tokens2, vs.words);
    DotSelf(vs.vector1);
    DotSelf(vs.vector2);
    VectorDot(vs.words, f1, f1);
    VectorDot(vs.words, f2, f2);
    Guard(dot, norm1, norm2)
  }

  /** `cosineSimilarity`: the similarity of the two texts' tokens. */
  function CosineSimilarity(text1: string, text2: string): (s: Similarity)
    ensures s.Ratio? && s.norm1 >= 1 && s.norm2 >= 1
    ensures 0 <= s.dot && s.dot * s.dot <= s.norm1 * s.norm2
  {
    Compare(Tokenize(text1), Tokenize(text2))
  }

  /** Counts are non-negative, so the dot product is. */
  lemma DotProperties(words: seq<string>, f: FrequencyMap, g: FrequencyMap)
    ensures Dot(Vector(f, words), Vector(g, words)) >= 0
  {
    VectorDot(words, f, g);
    ProductsNonNegative(words, f, g);
  }

  lemma ProductsNonNegative(words: seq<string>, f: FrequencyMap, g: FrequencyMap)
    ensures SumBy(words, Product(f, g)) >= 0
  {
    forall k | 0 <= k < |words| ensures Product(f, g)(words[k]) >= 0 {
      ProductNonNegative(Count(f, words[k]), Count(g, words[k]));
    }
    SumByNonNegative(words, Product(f, g));
  }

  /** Some token of a non-empty token list has count at least 1 in the words that contain it. */
  lemma NormAtLeastOne(tokens: seq<string>, words: seq<string>)
    requires |tokens| >= 1
    requires tokens[0] in words
    ensures SumBy(words, Product(TermFrequency(tokens), TermFrequency(tokens))) >= 1
  {
    var f := TermFrequency(tokens);
    var k :| 0 <= k < |words| && words[k] == tokens[0];
    var c := Count(f, tokens[0]);
    CountOfMember(tokens, 0);
    SquareAtLeastOne(c);
    assert Product(f, f)(words[k]) == c * c;
    SumByWithout(words, k, Product(f, f));
    ProductsNonNegative(words[..k] + words[k + 1..], f, f);
  }

  /** A token that occurs is counted at least once. */
  lemma CountOfMember(tokens: seq<string>, i: int)
    requires 0 <= i < |tokens|
    ensures Count(TermFrequency(tokens), tokens[i]) >= 1
  {
    assert tokens[i] in multiset(tokens);
  }

  lemma SquareAtLeastOne(c: int)
    requires c >= 1
    ensures c * c >= 1
  {
    assert c * c >= c * 1;
  }
}

=== FILE: cosine_as_written.dfy ===
/**
 `cosineSimilarity` of cosine-similarity.js as written, with the frequency maps as the
 JavaScript objects they are. `const freqMap = {}` inherits from `Object.prototype`, and
 two of the names it answers for can be spelled by a token (tokens are lower-case
 `\w`): `constructor` and `__proto__`.

 - `freqMap["constructor"] || 0` is the `Object` function, and `Object + 1` is a
   string, so the token's entry is not a number; its vector entries are not numbers
   in either vector, both magnitudes come out `NaN`, and the zero guard returns 0.
 - `freqMap["__proto__"] = …` goes to the `__proto__` setter, which ignores a string:
   the token never becomes a key and drops out of the comparison.

 Module Cosine is the definition with the evidently intended plain counts; the lemma
 `AgreesWithCorrected` shows the two coincide on every other pair of texts.
 */
module CosineAsWritten {
  import opened Tokenizer
  import opened Vectors
  import Cosine

  /** A property value: a number, or something that is not one (a function, an object, a string). */
  datatype JsValue = Num(n: int) | NotNumber

  /** The result of arithmetic on property values. */
  datatype JsNumber = Finite(v: int) | NaN

  /** The names `Object.prototype` provides that a token can spell. */
  predicate Inherited(w: string)
  {
    w == "constructor" || w == "__proto__"
  }

  /** An object used as a dictionary: its own enumerable keys in insertion order, and their values. */
  datatype JsObject = JsObject(keys: seq<string>, own: map<string, JsValue>)

  /**
   `obj[w] || 0`: an own value, else the inherited one (`Object` for `constructor`,
   `Object.prototype` for `__proto__`, both truthy), else `undefined || 0`.
   */
  function GetOrZero(m: JsObject, w: string): JsValue
  {
    if w in m.own then m.own[w]
    else if Inherited(w) then NotNumber
    else Num(0)
  }

  /** `v + 1`: adds to a number, concatenates to anything else. */
  function PlusOne(v: JsValue): JsValue
  {
    match v
    case Num(n) => Num(n + 1)
    case NotNumber => NotNumber
  }

  /**
   `obj[w] = v`. For `__proto__` this calls the setter, which ignores everything but
   objects and `null`; the values assigned here never are one.
   */
  function Assign(m: JsObject, w: string, v: JsValue): JsObject
  {
    if w == "__proto__" then m
    else JsObject(if w in m.own then m.keys else m.keys + [w], m.own[w := v])
  }

  /**
   What `termFrequency` leaves in the object: every token but `__proto__` is an own key,
   listed once; `constructor` holds a non-number, every other key its number of occurrences.
   */
  ghost predicate Tallies(m: JsObject, tokens: seq<string>)
  {
    && (forall w :: w in m.keys <==> w in m.own)
    && (forall w :: w in m.own <==> w in tokens && w != "__proto__")
    && (forall w :: w in m.own ==>
          m.own[w] == if w == "constructor" then NotNumber else Num(multiset(tokens)[w]))
  }

  /** `termFrequency` as written. */
  function TermFrequency(tokens: seq<string>): (m: JsObject)
    ensures Tallies(m, tokens)
  {
    if |tokens| == 0 then JsObject([], map[])
    else
      var init := tokens[..|tokens| - 1];
      var t := tokens[|tokens| - 1];
      assert tokens == init + [t];
      var m := TermFrequency(init);
      TalliesStep(m, init, t);
      Assign(m, t, PlusOne(GetOrZero(m, t)))
  }

  /** One `freqMap[token] = (freqMap[token] || 0) + 1` keeps the tallies. */
  lemma TalliesStep(m: JsObject, init: seq<string>, t: string)
    requires Tallies(m, init)
    ensures Tallies(Assign(m, t, PlusOne(GetOrZero(m, t))), init + [t])
  {
    var tokens := init + [t];
    assert forall w :: w in tokens <==> w in init || w == t;
    assert forall w :: multiset(tokens)[w] == multiset(init)[w] + if w == t then 1 else 0;
    if t != "__proto__" && t != "constructor" {
      assert GetOrZero(m, t) == Num(multiset(init)[t]);
    }
  }

  /** `freqMap[word] || 0` for every word, in order. */
  function Vector(m: JsObject, words: seq<string>): (v: seq<JsValue>)
    ensures |v| == |words|
    ensures forall i :: 0 <= i < |words| ==> v[i] == GetOrZero(m, words[i])
  {
    seq(|words|, i requires 0 <= i < |words| => GetOrZero(m, words[i]))
  }

  /** `a * b`: a number only when both are. */
  function Times(a: JsValue, b: JsValue): JsNumber
  {
    if a.Num? && b.Num? then Finite(a.n * b.n) else NaN
  }

  /** `a + b` on numbers: `NaN` absorbs. */
  function Plus(a: JsNumber, b: JsNumber): JsNumber
  {
    if a.Finite? && b.Finite? then Finite(a.v + b.v) else NaN
  }

  /** `dotProduct` as written. */
  function Dot(a: seq<JsValue>, b: seq<JsValue>): JsNumber
    requires |a| == |b|
  {
    if |a| == 0 then Finite(0)
    else Plus(Dot(a[..|a| - 1], b[..|b| - 1]), Times(a[|a| - 1], b[|b| - 1]))
  }

  /** The square of `magnitude` as written. */
  function SumOfSquares(a: seq<JsValue>): (r: JsNumber)
    ensures r.Finite? <==> forall i :: 0 <= i < |a| ==> a[i].Num?
  {
    if |a| == 0 then Finite(0)
    else
      assert forall i :: 0 <= i < |a| - 1 ==> a[..|a| - 1][i] == a[i];
      Plus(SumOfSquares(a[..|a| - 1]), Times(a[|a| - 1], a[|a| - 1]))
  }

  /** The entries of a vector as numbers. */
  function Lift(a: seq<int>): (r: seq<JsValue>)
    ensures |r| == |a| && forall i :: 0 <= i < |a| ==> r[i] == Num(a[i])
  {
    seq(|a|, i requires 0 <= i < |a| => Num(a[i]))
  }

  /** On numbers, the dot product as written is the plain one. */
  lemma {:induction false} DotOfNumbers(a: seq<int>, b: seq<int>)
    requires |a| == |b|
    ensures Dot(Lift(a), Lift(b)) == Finite(Vectors.Dot(a, b))
    decreases |a|
  {
    if |a| > 0 {
      assert Lift(a)[..|a| - 1] == Lift(a[..|a| - 1]);
      assert Lift(b)[..|b| - 1] == Lift(b[..|b| - 1]);
      DotOfNumbers(a[..|a| - 1], b[..|b| - 1]);
    }
  }

  /** On numbers, the squared magnitude as written is the plain one. */
  lemma {:induction false} SumOfSquaresOfNumbers(a: seq<int>)
    ensures SumOfSquares(Lift(a)) == Finite(Vectors.SumOfSquares(a))
    decreases |a|
  {
    if |a| > 0 {
      assert Lift(a)[..|a| - 1] == Lift(a[..|a| - 1]);
      SumOfSquaresOfNumbers(a[..|a| - 1]);
    }
  }

  /** When every entry of both vectors is a number, so is their dot product. */
  lemma {:induction false} DotOfFinite(a: seq<JsValue>, b: seq<JsValue>)
    requires |a| == |b|
    requires forall i :: 0 <= i < |a| ==> a[i].Num? && b[i].Num?
    ensures Dot(a, b).Finite?
    decreases |a|
  {
    if |a| > 0 {
      DotOfFinite(a[..|a| - 1], b[..|b| - 1]);
    }
  }

  /**
   The end of `cosineSimilarity` as written. The guard `magnitude1 && magnitude2` fails
   for a magnitude of 0 and for `NaN`; past it every entry is a number, so the dot product is one.
   */
  function FromVectors(v1: seq<JsValue>, v2: seq<JsValue>): (s: Cosine.Similarity)
    requires |v1| == |v2|
    ensures s.Ratio? <==> SumOfSquares(v1) != Finite(0) && SumOfSquares(v2) != Finite(0)
                          && forall i :: 0 <= i < |v1| ==> v1[i].Num? && v2[i].Num?
    ensures s.Ratio? ==> s.norm1 > 0 && s.norm2 > 0
  {
    var norm1 := SumOfSquares(v1);
    var norm2 := SumOfSquares(v2);
    if norm1.Finite? && norm1.v != 0 && norm2.Finite? && norm2.v != 0 then
      SumOfSquaresNonNegative(v1);
      SumOfSquaresNonNegative(v2);
      DotOfFinite(v1, v2);
      Cosine.Ratio(Dot(v1, v2).v, norm1.v, norm2.v)
    else
      Cosine.Zero
  }

  /** `cosineSimilarity` as written. */
  function CosineSimilarity(text1: string, text2: string): (s: Cosine.Similarity)
    ensures s.Ratio? ==> s.norm1 > 0 && s.norm2 > 0
  {
    var m1 := TermFrequency(Tokenize(text1));
    var m2 := TermFrequency(Tokenize(text2));
    var words := Dedup(m1.keys + m2.keys);
    FromVectors(Vector(m1, words), Vector(m2, words))
  }

  /** On numbers, the end of the computation as written is the plain guard. */
  lemma FromNumbers(a: seq<int>, b: seq<int>)
    requires |a| == |b|
    ensures FromVectors(Lift(a), Lift(b)) == Cosine.Guard(Vectors.Dot(a, b), Vectors.SumOfSquares(a), Vectors.SumOfSquares(b))
  {
    DotOfNumbers(a, b);
    SumOfSquaresOfNumbers(a);
    SumOfSquaresOfNumbers(b);
  }

  /** A sum of squares of numbers is not negative. */
  lemma {:induction false} SumOfSquaresNonNegative(a: seq<JsValue>)
    ensures SumOfSquares(a).Finite? ==> SumOfSquares(a).v >= 0
    decreases |a|
  {
    if |a| > 0 {
      SumOfSquaresNonNegative(a[..|a| - 1]);
      if a[|a| - 1].Num? {
        SquareNonNegative(a[|a| - 1].n);
      }
    }
  }

  /** Without the two inherited names, a frequency object holds the plain counts, in the same order. */
  lemma {:induction false} PlainTermFrequency(tokens: seq<string>)
    requires forall k :: 0 <= k < |tokens| ==> !Inherited(tokens[k])
    ensures TermFrequency(tokens).keys == Cosine.TermFrequency(tokens).keys
    ensures forall w :: !Inherited(w) ==>
              GetOrZero(TermFrequency(tokens), w) == Num(Cosine.Count(Cosine.TermFrequency(tokens), w))
    decreases |tokens|
  {
    if |tokens| > 0 {
      PlainTermFrequency(tokens[..|tokens| - 1]);
    }
  }

  /** Over words that are not inherited names, the vectors as written are the plain vectors. */
  lemma PlainVector(tokens: seq<string>, words: seq<string>)
    requires forall k :: 0 <= k < |tokens| ==> !Inherited(tokens[k])
    requires forall k :: 0 <= k < |words| ==> !Inherited(words[k])
    ensures Vector(TermFrequency(tokens), words) == Lift(Cosine.Vector(Cosine.TermFrequency(tokens), words))
  {
    PlainTermFrequency(tokens);
  }

  /**
   When neither text has a `constructor` or `__proto__` token, the similarity as
   written is the plain one.
   */
  lemma AgreesWithCorrected(text1: string, text2: string)
    requires forall k :: 0 <= k < |Tokenize(text1)| ==> !Inherited(Tokenize(text1)[k])
    requires forall k :: 0 <= k < |Tokenize(text2)| ==> !Inherited(Tokenize(text2)[k])
    ensures CosineSimilarity(text1, text2) == Cosine.CosineSimilarity(text1, text2)
  {
    var t1 := Tokenize(text1);
    var t2 := Tokenize(text2);
    PlainTermFrequency(t1);
    PlainTermFrequency(t2);
    VectorsAgree(t1, t2);
    WrittenInTermsOfVectors(text1, text2);
    CorrectedInTermsOfVectors(text1, text2);
  }

  /** Over the words of two plain token lists, the computation as written ends where the plain one does. */
  lemma VectorsAgree(t1: seq<string>, t2: seq<string>)
    requires forall k :: 0 <= k < |t1| ==> !Inherited(t1[k])
    requires forall k :: 0 <= k < |t2| ==> !Inherited(t2[k])
    ensures var f1 := Cosine.TermFrequency(t1);
            var f2 := Cosine.TermFrequency(t2);
            var words := Dedup(f1.keys + f2.keys);
            var a := Cosine.Vector(f1, words);
            var b := Cosine.Vector(f2, words);
            FromVectors(Vector(TermFrequency(t1), words), Vector(TermFrequency(t2), words))
              == Cosine.Guard(Vectors.Dot(a, b), Vectors.SumOfSquares(a), Vectors.SumOfSquares(b))
  {
    var f1 := Cosine.TermFrequency(t1);
    var f2 := Cosine.TermFrequency(t2);
    var words := Dedup(f1.keys + f2.keys);
    assert forall k :: 0 <= k < |words| ==> !Inherited(words[k]) by {
      forall k | 0 <= k < |words| ensures !Inherited(words[k]) {
        assert words[k] in f1.keys + f2.keys;
      }
    }
    PlainVector(t1, words);
    PlainVector(t2, words);
    FromNumbers(Cosine.Vector(f1, words), Cosine.Vector(f2, words));
  }

  lemma WrittenInTermsOfVectors(text1: string, text2: string)
    ensures var m1 := TermFrequency(Tokenize(text1));
            var m2 := TermFrequency(Tokenize(text2));
            var words := Dedup(m1.keys + m2.keys);
            CosineSimilarity(text1, text2) == FromVectors(Vector(m1, words), Vector(m2, words))
  {
  }

  lemma CorrectedInTermsOfVectors(text1: string, text2: string)
    ensures var f1 := Cosine.TermFrequency(Tokenize(text1));
            var f2 := Cosine.TermFrequency(Tokenize(text2));
            var words := Dedup(f1.keys + f2.keys);
            var a := Cosine.Vector(f1, words);
            var b := Cosine.Vector(f2, words);
            Cosine.CosineSimilarity(text1, text2)
              == Cosine.Guard(Vectors.Dot(a, b), Vectors.SumOfSquares(a), Vectors.SumOfSquares(b))
  {
  }

  /** A vector with an entry that is not a number has a `NaN` magnitude. */
  lemma NotNumberEntry(a: seq<JsValue>, i: int)
    requires 0 <= i < |a| && a[i] == NotNumber
    ensures SumOfSquares(a) == NaN
  {
  }

  /** A `constructor` token in either text makes the similarity as written 0, whatever else the texts hold. */
  lemma ConstructorGivesZero(text1: string, text2: string)
    requires "constructor" in Tokenize(text1) || "constructor" in Tokenize(text2)
    ensures CosineSimilarity(text1, text2) == Cosine.Zero
  {
    var m1 := TermFrequency(Tokenize(text1));
    var m2 := TermFrequency(Tokenize(text2));
    var words := Dedup(m1.keys + m2.keys);
    assert "constructor" in m1.keys + m2.keys;
    var i :| 0 <= i < |words| && words[i] == "constructor";
    NotNumberEntry(Vector(m1, words), i);
  }

  /** The tokens without the `__proto__` ones. */
  function WithoutProto(tokens: seq<string>): (r: seq<string>)
    ensures forall w :: w in r <==> w in tokens && w != "__proto__"
  {
    if |tokens| == 0 then []
    else
      var init := tokens[..|tokens| - 1];
      var t := tokens[|tokens| - 1];
      assert tokens == init + [t];
      WithoutProto(init) + (if t == "__proto__" then [] else [t])
  }

  /** A `__proto__` token never becomes a key: the frequency object is the one built without those tokens. */
  lemma {:induction false} ProtoIgnored(tokens: seq<string>)
    ensures TermFrequency(tokens) == TermFrequency(WithoutProto(tokens))
    decreases |tokens|
  {
    if |tokens| > 0 {
      var init := tokens[..|tokens| - 1];
      var t := tokens[|tokens| - 1];
      var kept := WithoutProto(init);
      assert tokens == init + [t];
      ProtoIgnored(init);
      WithoutProtoStep(init, t);
      if t == "__proto__" {
        var m := TermFrequency(init);
        UnfoldTermFrequency(init, t);
        assert Assign(m, t, PlusOne(GetOrZero(m, t))) == m;
        assert WithoutProto(tokens) == kept;
      } else {
        SameNextToken(init, kept, t);
        assert WithoutProto(tokens) == kept + [t];
      }
    }
  }

  lemma WithoutProtoStep(init: seq<string>, t: string)
    ensures WithoutProto(init + [t]) == WithoutProto(init) + if t == "__proto__" then [] else [t]
  {
    assert (init + [t])[..|init|] == init;
  }

  /** Token lists with the same frequency object still have one after the same next token. */
  lemma SameNextToken(a: seq<string>, b: seq<string>, t: string)
    requires TermFrequency(a) == TermFrequency(b)
    ensures TermFrequency(a + [t]) == TermFrequency(b + [t])
  {
    UnfoldTermFrequency(a, t);
    UnfoldTermFrequency(b, t);
  }

  /** `termFrequency` of one more token is one more assignment. */
  lemma UnfoldTermFrequency(init: seq<string>, t: string)
    ensures var m := TermFrequency(init);
            TermFrequency(init + [t]) == Assign(m, t, PlusOne(GetOrZero(m, t)))
  {
    assert (init + [t])[..|init|] == init;
  }

  /** The word `constructor` compared with itself: 0 as written, though the texts are identical. */
  lemma ConstructorNotSimilarToItself()
    ensures CosineSimilarity("constructor", "constructor") == Cosine.Zero
  {
    TokenizeWord("constructor");
    ConstructorGivesZero("constructor", "constructor");
  }

  /** The word `__proto__` compared with itself: both frequency objects are empty, so the guard returns 0. */
  lemma ProtoNotSimilarToItself()
    ensures CosineSimilarity("__proto__", "__proto__") == Cosine.Zero
  {
    TokenizeWord("__proto__");
    assert TermFrequency(["__proto__"]).keys == [];
  }
}

=== FILE: cosine_laws.dfy ===
/** What `cosineSimilarity` promises about pairs of texts: symmetry, identity, disjointness, range. */
module CosineLaws {
  import opened Tokenizer
  import opened Vectors
  import opened Cosine

  /** `Compare` is the guard-free ratio of the dot product and the squared magnitudes of the count vectors. */
  lemma CompareParts(t1: seq<string>, t2: seq<string>)
    requires |t1| >= 1 && |t2| >= 1
    ensures var vs := CreateVectorSpace(TermFrequency(t1), TermFrequency(t2));
            Compare(t1, t2) == Ratio(Dot(vs.vector1, vs.vector2), SumOfSquares(vs.vector1), SumOfSquares(vs.vector2))
  {
  }

  /** Swapping the token lists swaps the magnitudes and keeps the dot product: the sums do not depend on word order. */
  lemma CompareSymmetric(t1: seq<string>, t2: seq<string>)
    requires |t1| >= 1 && |t2| >= 1
    ensures var s := Compare(t1, t2);
            Compare(t2, t1) == Ratio(s.dot, s.norm2, s.norm1)
  {
    var f1 := TermFrequency(t1);
    var f2 := TermFrequency(t2);
    var w12 := CreateVectorSpace(f1, f2).words;
    var w21 := CreateVectorSpace(f2, f1).words;
    CompareParts(t1, t2);
    CompareParts(t2, t1);
    VectorDot(w12, f1, f2);
    VectorDot(w21, f2, f1);
    SumByPointwise(w21, Product(f2, f1), Product(f1, f2));
    SumByPermutation(w21, w12, Product(f1, f2));
    DotSelf(Vector(f1, w12));
    DotSelf(Vector(f1, w21));
    DotSelf(Vector(f2, w12));
    DotSelf(Vector(f2, w21));
    VectorDot(w12, f1, f1);
    VectorDot(w21, f1, f1);
    VectorDot(w12, f2, f2);
    VectorDot(w21, f2, f2);
    SumByPermutation(w12, w21, Product(f1, f1));
    SumByPermutation(w12, w21, Product(f2, f2));
  }

  /** Swapping the texts swaps the magnitudes and keeps the dot product. */
  lemma Symmetric(text1: string, text2: string)
    ensures var s := CosineSimilarity(text1, text2);
            CosineSimilarity(text2, text1) == Ratio(s.dot, s.norm2, s.norm1)
  {
    CompareSymmetric(Tokenize(text1), Tokenize(text2));
  }

  /** Whether a text is judged below the 0.5 threshold does not depend on the argument order. */
  lemma BelowHalfSymmetric(text1: string, text2: string)
    ensures BelowHalf(CosineSimilarity(text1, text2)) == BelowHalf(CosineSimilarity(text2, text1))
  {
    Symmetric(text1, text2);
    var s := CosineSimilarity(text1, text2);
    SwapNorms(s.dot, s.norm1, s.norm2);
  }

  lemma SwapNorms(d: int, n1: int, n2: int)
    ensures BelowHalf(Ratio(d, n1, n2)) == BelowHalf(Ratio(d, n2, n1))
  {
    assert n1 * n2 == n2 * n1;
  }

  /** `Ratio(n, n, n)` has value 1. */
  lemma UnitValue(n: int)
    requires n >= 1
    ensures IsValue(Ratio(n, n, n), 1.0) && !BelowHalf(Ratio(n, n, n))
  {
    assert 1.0 * 1.0 * ((n * n) as real) == (n * n) as real;
    assert 4 * (n * n) >= n * n;
  }

  /** `Ratio(0, n1, n2)` with positive magnitudes has value 0. */
  lemma ZeroValue(n1: int, n2: int)
    requires n1 >= 1 && n2 >= 1
    ensures IsValue(Ratio(0, n1, n2), 0.0) && BelowHalf(Ratio(0, n1, n2))
  {
    assert n1 * n2 >= 1 * n2;
  }

  /** A token list compared with itself: dot product and both squared magnitudes coincide. */
  lemma CompareIdentical(t: seq<string>)
    requires |t| >= 1
    ensures var s := Compare(t, t);
            s.dot == s.norm1 == s.norm2
  {
    var f := TermFrequency(t);
    var vs := CreateVectorSpace(f, f);
    CompareParts(t, t);
    assert vs.vector1 == vs.vector2;
    DotSelf(vs.vector1);
  }

  /** A text compared with itself has value 1. */
  lemma Identical(text: string)
    ensures var s := CosineSimilarity(text, text);
            s.dot == s.norm1 == s.norm2 && IsValue(s, 1.0) && !BelowHalf(s)
  {
    CompareIdentical(Tokenize(text));
    var s := CosineSimilarity(text, text);
    UnitValue(s.dot);
  }

  /** Token lists without a common token have dot product 0. */
  lemma CompareDisjoint(t1: seq<string>, t2: seq<string>)
    requires |t1| >= 1 && |t2| >= 1
    requires forall w :: w in t1 ==> w !in t2
    ensures Compare(t1, t2).dot == 0
  {
    var f1 := TermFrequency(t1);
    var f2 := TermFrequency(t2);
    var vs := CreateVectorSpace(f1, f2);
    forall i | 0 <= i < |vs.words| ensures vs.vector1[i] == 0 || vs.vector2[i] == 0 {
      var w := vs.words[i];
      if w in t1 {
        assert w !in multiset(t2);
      } else {
        assert w !in multiset(t1);
      }
    }
    CompareParts(t1, t2);
  }

  /** Texts without a common token have dot product 0, so the value is 0. */
  lemma Disjoint(text1: string, text2: string)
    requires forall w :: w in Tokenize(text1) ==> w !in Tokenize(text2)
    ensures var s := CosineSimilarity(text1, text2);
            s.dot == 0 && IsValue(s, 0.0) && BelowHalf(s)
  {
    CompareDisjoint(Tokenize(text1), Tokenize(text2));
    var s := CosineSimilarity(text1, text2);
    ZeroValue(s.norm1, s.norm2);
  }

  /** The value of any similarity lies in [0, 1]. */
  lemma InUnitInterval(text1: string, text2: string)
    ensures forall v :: IsValue(CosineSimilarity(text1, text2), v) ==> 0.0 <= v <= 1.0
  {
    var s := CosineSimilarity(text1, text2);
    PositiveProduct(s.norm1, s.norm2);
    forall v | IsValue(s, v) ensures 0.0 <= v <= 1.0 {
      ValueInUnitInterval(s, v);
    }
  }

  lemma PositiveProduct(n1: int, n2: int)
    requires n1 >= 1 && n2 >= 1
    ensures n1 * n2 >= 1
  {
    assert n1 * n2 >= 1 * n2;
  }
}

=== FILE: link_detector.dfy ===
/**
 The link and username detector of contains-links-or-username.js. Each regular
 expression is modelled by the condition under which a match starts (or, for the
 domain suffixes, is anchored) at a position; `test` succeeds exactly when that
 condition holds at some position of the text.
 */
module LinkDetector {
  import opened Text

  /** `https?:\/\/[^\s]+`, ignoring case: a scheme and at least one non-space character after it. */
  predicate SchemeLinkAt(s: string, i: int)
  {
    || (MatchesIgnoringCase(s, i, "http://") && i + 7 < |s| && !IsSpace(s[i + 7]))
    || (MatchesIgnoringCase(s, i, "https://") && i + 8 < |s| && !IsSpace(s[i + 8]))
  }

  /** `www\.[^\s]+`, ignoring case. */
  predicate WwwLinkAt(s: string, i: int)
  {
    MatchesIgnoringCase(s, i, "www.") && i + 4 < |s| && !IsSpace(s[i + 4])
  }

  /**
   `[^\s]+\.com` and `[^\s]+\.ru`, ignoring case, anchored at the dot: some non-space
   character directly before the suffix. Nothing is required after it, so `.community`
   and `.rules` qualify as well.
   */
  predicate DomainLinkAt(s: string, i: int)
  {
    1 <= i && (MatchesIgnoringCase(s, i, ".com") || MatchesIgnoringCase(s, i, ".ru")) && !IsSpace(s[i - 1])
  }

  /** One of the four alternatives of the link pattern holds at `i`. */
  predicate LinkAt(s: string, i: int)
  {
    SchemeLinkAt(s, i) || WwwLinkAt(s, i) || DomainLinkAt(s, i)
  }

  /** `@\w+`: an `@` directly followed by an ASCII word character (this pattern has no `i` flag). */
  predicate UsernameAt(s: string, i: int)
  {
    0 <= i && i + 1 < |s| && s[i] == '@' && IsWordChar(s[i + 1])
  }

  /** The object the detector returns. */
  datatype LinkReport = LinkReport(hasLink: bool, hasUsername: bool, contains: bool)

  /** `containsLinksOrUsernames`. */
  function ContainsLinksOrUsernames(s: string): (r: LinkReport)
    ensures r.hasLink <==> exists i :: 0 <= i < |s| && LinkAt(s, i)
    ensures r.hasUsername <==> exists i :: 0 <= i < |s| && UsernameAt(s, i)
    ensures r.contains <==> r.hasLink || r.hasUsername
  {
    var link := i => LinkAt(s, i);
    var username := i => UsernameAt(s, i);
    assert forall i :: link(i) == LinkAt(s, i);
    assert forall i :: username(i) == UsernameAt(s, i);
    var hasLink := AnyPosition(link, 0, |s|);
    var hasUsername := AnyPosition(username, 0, |s|);
    LinkReport(hasLink, hasUsername, hasLink || hasUsername)
  }

  /** A scheme written in any case, followed by a non-space character, is a link wherever it stands. */
  lemma SchemeIsLink(a: string, scheme: string, b: string)
    requires LowerAscii(scheme) == "http://" || LowerAscii(scheme) == "https://"
    requires |b| > 0 && !IsSpace(b[0])
    ensures ContainsLinksOrUsernames(a + scheme + b).hasLink
  {
    var s := a + scheme + b;
    var lit := LowerAscii(scheme);
    forall k | 0 <= k < |lit| ensures LowerChar(s[|a| + k]) == lit[k] {
      assert s[|a| + k] == scheme[k];
    }
    assert s[|a| + |scheme|] == b[0];
    assert LinkAt(s, |a|);
  }

  /** `www.` in any case, followed by a non-space character, is a link wherever it stands. */
  lemma WwwIsLink(a: string, www: string, b: string)
    requires LowerAscii(www) == "www."
    requires |b| > 0 && !IsSpace(b[0])
    ensures ContainsLinksOrUsernames(a + www + b).hasLink
  {
    var s := a + www + b;
    forall k | 0 <= k < 4 ensures LowerChar(s[|a| + k]) == "www."[k] {
      assert s[|a| + k] == www[k];
    }
    assert s[|a| + 4] == b[0];
    assert LinkAt(s, |a|);
  }

  /** `.com` or `.ru` in any case, right after a non-space character, is a link whatever follows it. */
  lemma DomainIsLink(a: string, suffix: string, b: string)
    requires LowerAscii(suffix) == ".com" || LowerAscii(suffix) == ".ru"
    requires |a| > 0 && !IsSpace(a[|a| - 1])
    ensures ContainsLinksOrUsernames(a + suffix + b).hasLink
  {
    var s := a + suffix + b;
    var lit := LowerAscii(suffix);
    forall k | 0 <= k < |lit| ensures LowerChar(s[|a| + k]) == lit[k] {
      assert s[|a| + k] == suffix[k];
    }
    assert s[|a| - 1] == a[|a| - 1];
    assert LinkAt(s, |a|);
  }

  /** There is no word boundary after the suffix: `x.community` counts as a link. */
  lemma NoBoundaryAfterDomain()
    ensures ContainsLinksOrUsernames("x.community").hasLink
  {
    DomainIsLink("x", ".com", "munity");
    assert "x" + ".com" + "munity" == "x.community";
  }

  /**
   The example in the source, a Russian sentence with an https link and a username,
   split around the scheme: all three flags are set.
   */
  lemma DocumentedExample(before: string, after: string)
    requires before == "Пример текста с ссылкой "
    requires after == "example.com и @username"
    ensures ContainsLinksOrUsernames(before + "https://" + after) == LinkReport(true, true, true)
  {
    SchemeIsLink(before, "https://", after);
    var s := before + "https://" + after;
    assert s[46] == after[14] && s[47] == after[15];
    assert UsernameAt(s, 46);
  }

  /** The empty text contains nothing. */
  lemma EmptyText()
    ensures ContainsLinksOrUsernames("") == LinkReport(false, false, false)
  {
  }

  /** Every alternative reads the same at a position of the upper-cased text as of the original. */
  lemma MatchesUpper(s: string, i: int)
    ensures LinkAt(UpperAscii(s), i) == LinkAt(s, i)
    ensures UsernameAt(UpperAscii(s), i) == UsernameAt(s, i)
  {
    var u := UpperAscii(s);
    MatchesIgnoringCaseUpper(s, i, "http://");
    MatchesIgnoringCaseUpper(s, i, "https://");
    MatchesIgnoringCaseUpper(s, i, "www.");
    MatchesIgnoringCaseUpper(s, i, ".com");
    MatchesIgnoringCaseUpper(s, i, ".ru");
    forall j | 0 <= j < |s| ensures IsSpace(u[j]) == IsSpace(s[j]) && IsWordChar(u[j]) == IsWordChar(s[j])
      && (u[j] == '@' <==> s[j] == '@')
    {
      CaseFolding(s[j]);
    }
  }

  /** The `i` flag (and `\w` containing both cases) make the report insensitive to ASCII case. */
  lemma CaseInsensitive(s: string)
    ensures ContainsLinksOrUsernames(UpperAscii(s)) == ContainsLinksOrUsernames(s)
  {
    forall i | 0 <= i < |s|
      ensures LinkAt(UpperAscii(s), i) == LinkAt(s, i) && UsernameAt(UpperAscii(s), i) == UsernameAt(s, i)
    {
      MatchesUpper(s, i);
    }
  }

  /**
   Every alternative of both patterns needs an ASCII word character, so a text without
   one (Cyrillic text, for one) has neither a link nor a username.
   */
  lemma NoWordCharsNothingFound(s: string)
    requires forall k :: 0 <= k < |s| ==> !IsWordChar(s[k])
    ensures !ContainsLinksOrUsernames(s).contains
  {
    forall i | 0 <= i < |s| ensures !LinkAt(s, i) && !UsernameAt(s, i) {
      MatchNeedsChar(s, i, "http://", 0);
      MatchNeedsChar(s, i, "https://", 0);
      MatchNeedsChar(s, i, "www.", 0);
      MatchNeedsChar(s, i, ".com", 1);
      MatchNeedsChar(s, i, ".ru", 1);
    }
  }

  /**
   Every alternative of both patterns needs a `:`, a `.` or an `@`, so a text without
   them has neither a link nor a username.
   */
  lemma NoMarkersNothingFound(s: string)
    requires forall k :: 0 <= k < |s| ==> s[k] != ':' && s[k] != '.' && s[k] != '@'
    ensures !ContainsLinksOrUsernames(s).contains
  {
    forall i | 0 <= i < |s| ensures !LinkAt(s, i) && !UsernameAt(s, i) {
      MatchNeedsChar(s, i, "http://", 4);
      MatchNeedsChar(s, i, "https://", 5);
      MatchNeedsChar(s, i, "www.", 3);
      MatchNeedsChar(s, i, ".com", 0);
      MatchNeedsChar(s, i, ".ru", 0);
    }
  }
}

=== FILE: link_presence.dfy ===
/**
 The detector of src/utils.js, `isLinkPresent`, and how it relates to the detector of
 contains-links-or-username.js. Its pattern is compiled afresh on every call, so the
 `g` flag's `lastIndex` always starts at 0 and the result depends on the text alone;
 that is why it is a function here.
 */
module LinkPresence {
  import opened Text
  import opened LinkDetector

  /**
   One alternative of `(http[s]?:\/\/|www\.|t\.me|wa\.me|@[\w]+)`, ignoring case,
   starts at `i`. Nothing has to follow the prefixes.
   */
  predicate PresenceAt(s: string, i: int)
  {
    || MatchesIgnoringCase(s, i, "http://")
    || MatchesIgnoringCase(s, i, "https://")
    || MatchesIgnoringCase(s, i, "www.")
    || MatchesIgnoringCase(s, i, "t.me")
    || MatchesIgnoringCase(s, i, "wa.me")
    || UsernameAt(s, i)
  }

  /** `isLinkPresent`. */
  function IsLinkPresent(s: string): (r: bool)
    ensures r <==> exists i :: 0 <= i < |s| && PresenceAt(s, i)
  {
    var present := i => PresenceAt(s, i);
    assert forall i :: present(i) == PresenceAt(s, i);
    AnyPosition(present, 0, |s|)
  }

  /** Each of the five prefixes, in any case and anywhere in the text, is enough. */
  lemma PrefixIsPresent(a: string, prefix: string, b: string)
    requires LowerAscii(prefix) in ["http://", "https://", "www.", "t.me", "wa.me"]
    ensures IsLinkPresent(a + prefix + b)
  {
    var s := a + prefix + b;
    var lit := LowerAscii(prefix);
    forall k | 0 <= k < |lit| ensures LowerChar(s[|a| + k]) == lit[k] {
      assert s[|a| + k] == prefix[k];
    }
    assert PresenceAt(s, |a|);
  }

  /** Neither `www.` nor a domain suffix starts at a position holding neither `w`, `W` nor `.`. */
  lemma NoWwwOrDomainAt(s: string, i: int)
    requires 0 <= i < |s| && LowerChar(s[i]) != 'w' && s[i] != '.'
    ensures !WwwLinkAt(s, i) && !DomainLinkAt(s, i)
  {
    FirstCharMismatch(s, i, "www.");
    FirstCharMismatch(s, i, ".com");
    FirstCharMismatch(s, i, ".ru");
  }

  /** No alternative of the link pattern holds anywhere in a bare `http://`. */
  lemma NoLinkInBareScheme()
    ensures forall i :: 0 <= i < 7 ==> !LinkAt("http://", i)
  {
    var h := "http://";
    forall i | 0 <= i < 7 ensures !LinkAt(h, i) {
      assert !SchemeLinkAt(h, i);
      assert h[i] in ['h', 't', 'p', ':', '/'];
      NoWwwOrDomainAt(h, i);
    }
  }

  /** No alternative of the link pattern holds anywhere in a bare `www.`. */
  lemma NoLinkInBareWww()
    ensures forall i :: 0 <= i < 4 ==> !LinkAt("www.", i)
  {
    var w := "www.";
    FirstCharMismatch(w, 0, ".com");
    FirstCharMismatch(w, 0, ".ru");
    FirstCharMismatch(w, 1, ".com");
    FirstCharMismatch(w, 1, ".ru");
    FirstCharMismatch(w, 2, ".ru");
  }

  /** A bare scheme or `www.` with nothing after it counts here, but not for the other detector. */
  lemma BarePrefixes()
    ensures IsLinkPresent("http://") && !ContainsLinksOrUsernames("http://").hasLink
    ensures IsLinkPresent("www.") && !ContainsLinksOrUsernames("www.").hasLink
  {
    BareSchemePresent();
    BareWwwPresent();
    NoLinkInBareScheme();
    NoLinkInBareWww();
  }

  lemma BareSchemePresent()
    ensures IsLinkPresent("http://")
  {
    var h := "http://";
    assert MatchesIgnoringCase(h, 0, "http://");
    assert PresenceAt(h, 0);
  }

  lemma BareWwwPresent()
    ensures IsLinkPresent("www.")
  {
    var w := "www.";
    assert MatchesIgnoringCase(w, 0, "www.");
    assert PresenceAt(w, 0);
  }

  /** A username for the first detector is a mention for this one. */
  lemma UsernameIsPresent(s: string)
    requires ContainsLinksOrUsernames(s).hasUsername
    ensures IsLinkPresent(s)
  {
    var i :| 0 <= i < |s| && UsernameAt(s, i);
    assert PresenceAt(s, i);
  }

  /** A scheme or `www.` link of the first detector starts with a prefix this one looks for. */
  lemma SchemeOrWwwIsPresent(s: string, i: int)
    requires SchemeLinkAt(s, i) || WwwLinkAt(s, i)
    ensures IsLinkPresent(s)
  {
    assert PresenceAt(s, i);
  }

  /**
   The two detectors disagree in one direction only through the domain suffixes: on a
   text this detector passes, the other one fires exactly when `.com` or `.ru` follows
   a non-space character.
   */
  lemma AbsentMeansOnlyDomains(s: string)
    requires !IsLinkPresent(s)
    ensures ContainsLinksOrUsernames(s).contains <==> exists i :: 0 <= i < |s| && DomainLinkAt(s, i)
  {
    forall i | 0 <= i < |s|
      ensures !SchemeLinkAt(s, i) && !WwwLinkAt(s, i) && !UsernameAt(s, i)
      ensures LinkAt(s, i) == DomainLinkAt(s, i)
    {
      assert !PresenceAt(s, i);
    }
  }

  /** No prefix of this detector starts anywhere in `x.com`. */
  lemma NothingPresentInDomain()
    ensures forall i :: 0 <= i < 5 ==> !PresenceAt("x.com", i)
  {
    var s := "x.com";
    FirstCharMismatch(s, 0, "www.");
    FirstCharMismatch(s, 0, "t.me");
    FirstCharMismatch(s, 0, "wa.me");
    FirstCharMismatch(s, 1, "www.");
    FirstCharMismatch(s, 1, "t.me");
  }

  /** The converse implication fails: `x.com` is a link for the first detector only. */
  lemma DomainNotPresent()
    ensures ContainsLinksOrUsernames("x.com").hasLink
    ensures !IsLinkPresent("x.com")
  {
    DomainIsLink("x", ".com", "");
    assert "x" + ".com" + "" == "x.com";
    NothingPresentInDomain();
  }

  /** The `i` flag: upper-casing ASCII letters does not change the result. */
  lemma CaseInsensitive(s: string)
    ensures IsLinkPresent(UpperAscii(s)) == IsLinkPresent(s)
  {
    forall i | 0 <= i < |s| ensures PresenceAt(UpperAscii(s), i) == PresenceAt(s, i) {
      MatchesIgnoringCaseUpper(s, i, "http://");
      MatchesIgnoringCaseUpper(s, i, "https://");
      MatchesIgnoringCaseUpper(s, i, "www.");
      MatchesIgnoringCaseUpper(s, i, "t.me");
      MatchesIgnoringCaseUpper(s, i, "wa.me");
      MatchesUpper(s, i);
    }
  }
}

=== FILE: moderation_bot.dfy ===
/**
 The moderation bot of src/bot.js without its transport: the settings database and
 the commands that change it, the review prompt and its buttons, the moderator's
 answers that label training examples, and the decision taken for each chat message.
 Replies and sends are returned as values; the neural network's `run` is the
 parameter `score`, and its `train` is the flag `train` of a labelled answer.
 */
module ModerationBot {
  import opened Wrappers
  import opened Text
  import opened LinkDetector
  import opened LinkPresence
  import opened TrainingStore

  /** `trainingGoal`: the number of labelled examples after which the bot moderates on its own. */
  const TrainingGoal: int := 1000

  /** The line the review prompt starts with. */
  const PromptHeader: string := "Подходит это сообщение?\n\n"

  /** database.json: who administers and moderates, the group, and whether moderation is on. */
  datatype Db = Db(admin: Option<int>, moderator: Option<int>, group: Option<int>, moderate: string)

  /** The database written when the file does not exist. */
  const InitialDb: Db := Db(None, None, None, "no")

  /**
   `isAdmin`: strict equality of the sender's id with the stored one. With no admin
   stored the comparison is with `undefined`, so nobody is admin.
   */
  function IsAdmin(sender: int, db: Db): (r: bool)
    ensures db.admin.None? ==> !r
    ensures db.admin.Some? ==> (r <==> sender == db.admin.value)
  {
    db.admin == Some(sender)
  }

  /** `isModerator`: as `isAdmin`, against the stored moderator. */
  function IsModerator(sender: int, db: Db): (r: bool)
    ensures db.moderator.None? ==> !r
    ensures db.moderator.Some? ==> (r <==> sender == db.moderator.value)
  {
    db.moderator == Some(sender)
  }

  /** `!db.admin`: no admin stored, or the falsy id 0. */
  predicate AdminUnset(db: Db)
  {
    db.admin == None || db.admin == Some(0)
  }

  /**
   Whether the bot counts as trained: no examples are missing any more, that is the
   `remaining` count an answer reports is zero or below.
   */
  function Trained(count: int): (r: bool)
    ensures r <==> TrainingGoal - count <= 0
  {
    count >= TrainingGoal
  }

  // ---------------------------------------------------------------------------
  // Commands

  /**
   A command as the handlers see it. The id arguments are what `parseInt` makes of
   the second space-separated word, `None` for `NaN`; `/moderate` reads its word itself.
   */
  datatype Command = Start | SetModerator(id: Option<int>) | SetGroup(id: Option<int>) | SetModerate(text: string)

  /** The replies of the command handlers; `Silent` is a handler that returns without one. */
  datatype Reply =
    | NoDatabase
    | Silent
    | AppointedAdmin
    | CommandList
    | OnlyForStaff
    | AskForUserId
    | ModeratorChanged(moderator: int)
    | AskForGroupId
    | GroupChanged(group: int)
    | AskForState
    | ModerationChanged(on: bool)

  /** The database after a command (absent when it never loaded), and the reply. */
  datatype Outcome = Outcome(db: Option<Db>, reply: Reply)

  /**
   The second space-separated word: the text after the first space up to the next space
   or the end, absent when there is no space.
   */
  function Argument(text: string): (r: Option<string>)
    ensures r.Some? <==> ' ' in text
    ensures r.Some? ==> ' ' !in r.value
    ensures r.Some? ==>
              var i := IndexOf(text, ' ');
              var n := i + 1 + |r.value|;
              0 <= i && n <= |text| && text[i + 1..n] == r.value && (n == |text| || text[n] == ' ')
  {
    var i := IndexOf(text, ' ');
    if i == -1 then None
    else
      var w := UpTo(text[i + 1..], ' ');
      assert text[i + 1..i + 1 + |w|] == text[i + 1..][..|w|];
      Some(w)
  }

  /** `Argument` is `text.split(" ")[1]`, with `undefined` as `None`. */
  lemma ArgumentIsSplit(text: string)
    ensures var parts := SplitOn(text, ' ');
            Argument(text) == if |parts| >= 2 then Some(parts[1]) else None
  {
    SplitPieces(text, ' ');
  }

  /** The word after `/moderate` is stored only when it is `yes` or `no`. */
  predicate ValidState(state: Option<string>)
  {
    state == Some("yes") || state == Some("no")
  }

  /** The handlers of `/start`, `/moderator`, `/group` and `/moderate`, for a message from `sender`. */
  function Execute(db: Option<Db>, sender: int, cmd: Command): (o: Outcome)
    ensures db.None? ==> o == Outcome(None, NoDatabase)
    ensures db.Some? ==> o.db.Some?
    ensures db.Some? && o.db != db ==>
              match cmd
              case Start => AdminUnset(db.value)
              case SetModerator(id) => IsAdmin(sender, db.value) && id.Some?
              case SetGroup(id) => IsAdmin(sender, db.value) && id.Some?
              case SetModerate(text) => (IsAdmin(sender, db.value) || IsModerator(sender, db.value))
                                        && ValidState(Argument(text))
    // what each accepted command stores; every other field keeps its value
    ensures db.Some? && cmd.Start? && AdminUnset(db.value) ==>
              o == Outcome(Some(db.value.(admin := Some(sender), moderator := Some(sender))), AppointedAdmin)
    ensures db.Some? && cmd.SetModerator? && IsAdmin(sender, db.value) && cmd.id.Some? ==>
              o == Outcome(Some(db.value.(moderator := cmd.id)), ModeratorChanged(cmd.id.value))
    ensures db.Some? && cmd.SetGroup? && IsAdmin(sender, db.value) && cmd.id.Some? ==>
              o == Outcome(Some(db.value.(group := cmd.id)), GroupChanged(cmd.id.value))
    ensures db.Some? && cmd.SetModerate? && (IsAdmin(sender, db.value) || IsModerator(sender, db.value))
            && ValidState(Argument(cmd.text)) ==>
              o == Outcome(Some(db.value.(moderate := Argument(cmd.text).value)),
                           ModerationChanged(Argument(cmd.text) == Some("yes")))
  {
    if db.None? then Outcome(None, NoDatabase)
    else
      var d := db.value;
      match cmd
      case Start =>
        if AdminUnset(d) then
          Outcome(Some(d.(admin := Some(sender), moderator := Some(sender))), AppointedAdmin)
        else if IsAdmin(sender, d) || IsModerator(sender, d) then Outcome(db, CommandList)
        else Outcome(db, OnlyForStaff)
      case SetModerator(id) =>
        if !IsAdmin(sender, d) then Outcome(db, Silent)
        else if id.None? then Outcome(db, AskForUserId)
        else Outcome(Some(d.(moderator := id)), ModeratorChanged(id.value))
      case SetGroup(id) =>
        if !IsAdmin(sender, d) then Outcome(db, Silent)
        else if id.None? then Outcome(db, AskForGroupId)
        else Outcome(Some(d.(group := id)), GroupChanged(id.value))
      case SetModerate(text) =>
        var state := Argument(text);
        if !IsAdmin(sender, d) && !IsModerator(sender, d) then Outcome(db, Silent)
        else if !ValidState(state) then Outcome(db, AskForState)
        else Outcome(Some(d.(moderate := state.value)), ModerationChanged(state.value == "yes"))
  }

  /** `/moderate yes` and `/moderate no` carry their word through the split. */
  lemma ModerateArgument(state: string)
    requires state == "yes" || state == "no"
    ensures Argument("/moderate " + state) == Some(state)
  {
    SplitJoin(["/moderate", state], ' ');
    assert Join(["/moderate", state], ' ') == "/moderate " + state;
  }

  /** `/start` in a fresh bot makes the sender both admin and moderator, and nothing else changes. */
  lemma StartAppoints(db: Db, sender: int)
    requires AdminUnset(db)
    ensures var o := Execute(Some(db), sender, Start);
            o.reply == AppointedAdmin && o.db.Some?
            && IsAdmin(sender, o.db.value) && IsModerator(sender, o.db.value)
            && o.db.value.group == db.group && o.db.value.moderate == db.moderate
  {
  }

  /** The commands in order, from `db`; a run stops changing anything when there is no database. */
  function ExecuteAll(db: Option<Db>, cmds: seq<(int, Command)>): Option<Db>
  {
    if |cmds| == 0 then db
    else
      var (sender, cmd) := cmds[|cmds| - 1];
      Execute(ExecuteAll(db, cmds[..|cmds| - 1]), sender, cmd).db
  }

  /**
   Once a (non-zero) admin is set, no run of commands changes it, and only the admin
   can have changed the group.
   */
  lemma {:induction false} AdminIsPermanent(db: Db, cmds: seq<(int, Command)>)
    requires !AdminUnset(db)
    ensures var r := ExecuteAll(Some(db), cmds);
            && r.Some? && r.value.admin == db.admin
            && ((forall k :: 0 <= k < |cmds| ==> !IsAdmin(cmds[k].0, db)) ==> r.value.group == db.group)
    decreases |cmds|
  {
    if |cmds| > 0 {
      AdminIsPermanent(db, cmds[..|cmds| - 1]);
    }
  }

  /** Starting from the initial database, moderation is always `yes` or `no`. */
  lemma {:induction false} ModerateStaysValid(cmds: seq<(int, Command)>)
    ensures var r := ExecuteAll(Some(InitialDb), cmds);
            r.Some? && (r.value.moderate == "yes" || r.value.moderate == "no")
    decreases |cmds|
  {
    if |cmds| > 0 {
      ModerateStaysValid(cmds[..|cmds| - 1]);
    }
  }

  // ---------------------------------------------------------------------------
  // Review prompts and the moderator's answers

  datatype Action = Approve | Reject

  function ActionName(a: Action): string
  {
    match a
    case Approve => "approve"
    case Reject => "reject"
  }

  /** The label stored for an answer: `appropriate` is 1 for approve and 0 for reject. */
  function Appropriate(a: Action): (r: int)
    ensures r == 1 <==> a.Approve?
    ensures r == 0 <==> a.Reject?
  {
    if a.Approve? then 1 else 0
  }

  /** A message id interpolated into a string: the id, or `undefined`. */
  function IdText(id: Option<string>): string
  {
    id.GetOr("undefined")
  }

  /** `` `${action}:${messageId}` ``. */
  function CallbackData(a: Action, id: string): string
  {
    ActionName(a) + ":" + id
  }

  /** `const [action, messageId] = data.split(":")`. */
  datatype Callback = Callback(action: string, messageId: Option<string>)

  function ParseCallback(data: string): (c: Callback)
    ensures ':' !in c.action
    ensures c.messageId.Some? <==> ':' in data
    ensures c.messageId.None? ==> c.action == data
    ensures c.messageId.Some? ==>
              && ':' !in c.messageId.value
              && |c.action| + 1 + |c.messageId.value| <= |data|
              && data[..|c.action| + 1 + |c.messageId.value|] == c.action + ":" + c.messageId.value
    ensures c.messageId.Some? ==>
              var n := |c.action| + 1 + |c.messageId.value|;
              n == |data| || data[n] == ':'
  {
    var i := IndexOf(data, ':');
    if i == -1 then Callback(data, None)
    else
      FirstTwoPieces(data, ':', i);
      Callback(data[..i], Some(UpTo(data[i + 1..], ':')))
  }

  /** `ParseCallback` is `const [action, messageId] = data.split(":")`. */
  lemma ParseCallbackIsSplit(data: string)
    ensures var parts := SplitOn(data, ':');
            ParseCallback(data) == Callback(parts[0], if |parts| >= 2 then Some(parts[1]) else None)
  {
    SplitPieces(data, ':');
  }

  /** `action === "approve" || action === "reject"`. */
  function ParseAction(name: string): (r: Option<Action>)
    ensures r.Some? ==> ActionName(r.value) == name
    ensures r.None? ==> forall a :: ActionName(a) != name
  {
    if name == "approve" then Some(Approve)
    else if name == "reject" then Some(Reject)
    else None
  }

  /** The callback data of a button parses back to its action and message id. */
  lemma CallbackRoundTrip(a: Action, id: string)
    requires ':' !in id
    ensures ParseCallback(CallbackData(a, id)) == Callback(ActionName(a), Some(id))
    ensures ParseAction(ActionName(a)) == Some(a)
  {
    assert ':' !in ActionName(a);
    SplitJoin([ActionName(a), id], ':');
    assert Join([ActionName(a), id], ':') == CallbackData(a, id);
  }

  /** An inline keyboard of two buttons: "yes" (approve) and "no" (reject). */
  datatype Buttons = Buttons(approveText: string, approveData: string, rejectText: string, rejectData: string)

  /** The keyboard under a prompt; after an answer the chosen button is ticked. */
  function Keyboard(id: string, chosen: Option<Action>): (b: Buttons)
    ensures b.approveData == CallbackData(Approve, id) && b.rejectData == CallbackData(Reject, id)
    ensures b.approveText == "✅ Да" <==> chosen == Some(Approve)
    ensures b.rejectText == "✅ Нет" <==> chosen == Some(Reject)
  {
    Buttons(if chosen == Some(Approve) then "✅ Да" else "Да", CallbackData(Approve, id),
            if chosen == Some(Reject) then "✅ Нет" else "Нет", CallbackData(Reject, id))
  }

  /** The prompt sent to the moderator for a message text. */
  function Prompt(text: string): string
  {
    PromptHeader + text
  }

  /** Removing the header from a prompt gives back the message text. */
  lemma PromptRoundTrip(text: string)
    ensures RemoveFirst(Prompt(text), PromptHeader) == text
  {
    RemovePrefix(PromptHeader, text);
  }

  /** What an answer does besides changing the store. */
  datatype AnswerEffect =
    | AnswerNoDatabase
    | AnswerIgnored
    | Labelled(buttons: Buttons, remaining: int, train: bool)

  datatype AnswerOutcome = AnswerOutcome(store: Store, effect: AnswerEffect)

  /**
   The `callback_query` handler: an answer by the admin or the moderator to a prompt
   (`promptText`) stores the example under the id from the data, with the header
   removed from the text and the label of the action. It reports the examples still
   missing and trains once the count is at or past the goal.

   `delivered` says whether every Telegram call the handler awaits went through: the
   edit of the prompt's buttons, the answer to the callback and, at the goal, the
   notice to the moderator. The store is updated before those calls, so a failed call
   keeps the new example but skips the training, the catch swallowing the error.
   */
  function OnAnswer(db: Option<Db>, sender: int, st: Store, data: string, promptText: string,
                    delivered: bool): (o: AnswerOutcome)
    ensures !o.effect.Labelled? ==> o.store == st
    ensures o.effect.Labelled? <==>
              db.Some? && (IsAdmin(sender, db.value) || IsModerator(sender, db.value))
              && ParseAction(ParseCallback(data).action).Some?
    ensures o.effect.Labelled? ==>
              var c := ParseCallback(data);
              var a := ParseAction(c.action).value;
              o.store == Upsert(st, c.messageId, RemoveFirst(promptText, PromptHeader), Appropriate(a))
              && o.effect.buttons == Keyboard(IdText(c.messageId), Some(a))
              && o.effect.remaining == TrainingGoal - o.store.count
              && (o.effect.train <==> delivered && Trained(o.store.count))
  {
    if db.None? then AnswerOutcome(st, AnswerNoDatabase)
    else if !IsAdmin(sender, db.value) && !IsModerator(sender, db.value) then AnswerOutcome(st, AnswerIgnored)
    else
      var c := ParseCallback(data);
      var action := ParseAction(c.action);
      if action.None? then AnswerOutcome(st, AnswerIgnored)
      else
        var text := RemoveFirst(promptText, PromptHeader);
        var st' := Upsert(st, c.messageId, text, Appropriate(action.value));
        AnswerOutcome(st', Labelled(Keyboard(IdText(c.messageId), action), TrainingGoal - st'.count,
                                    delivered && st'.count >= TrainingGoal))
  }

  /**
   Once the count has reached the goal, every answer that labels an example and gets
   through to Telegram trains again.
   */
  lemma TrainingRepeats(db: Option<Db>, sender: int, st: Store, data: string, promptText: string,
                        delivered: bool)
    requires Trained(st.count)
    requires OnAnswer(db, sender, st, data, promptText, delivered).effect.Labelled?
    ensures OnAnswer(db, sender, st, data, promptText, delivered).effect.train <==> delivered
    ensures OnAnswer(db, sender, st, data, promptText, delivered).effect.remaining <= 0
  {
  }

  /**
   Pressing the same button again changes neither the store nor the buttons: the edit it
   asks for is the one already shown, which Telegram refuses, so such a press is not
   delivered and does not train.
   */
  lemma RepeatedAnswer(db: Option<Db>, sender: int, st: Store, data: string, promptText: string,
                       d1: bool, d2: bool)
    requires OnAnswer(db, sender, st, data, promptText, d1).effect.Labelled?
    ensures var o1 := OnAnswer(db, sender, st, data, promptText, d1);
            var o2 := OnAnswer(db, sender, o1.store, data, promptText, d2);
            && o2.effect.Labelled?
            && o2.store == o1.store
            && o2.effect.buttons == o1.effect.buttons
            && o2.effect.remaining == o1.effect.remaining
  {
    var c := ParseCallback(data);
    var a := ParseAction(c.action).value;
    var text := RemoveFirst(promptText, PromptHeader);
    SecondUpsertWins(st, c.messageId, text, Appropriate(a), text, Appropriate(a));
  }

  // ---------------------------------------------------------------------------
  // Chat messages

  /** `Number(process.env.GROUP_ID)` and `Number(process.env.MODERATOR_CHAT_ID)`; `None` for `NaN`. */
  datatype Env = Env(groupId: Option<int>, moderatorChatId: Option<int>)

  /** The chats whose messages the bot looks at. */
  predicate Watched(env: Env, chatId: int)
  {
    env.groupId == Some(chatId) || env.moderatorChatId == Some(chatId)
  }

  datatype MessageAction =
    | Ignore
    | SendForReview(to: Option<int>, prompt: string, buttons: Buttons)
    | DeleteAndNotify(messageId: nat, user: int)
    | Keep

  /** A message is inappropriate when the network scores it below 0.5 or it holds a link or mention. */
  predicate Inappropriate(text: string, score: string -> real)
  {
    score(text) < 0.5 || IsLinkPresent(text)
  }

  /**
   The `message` handler. Outside the watched chats nothing happens. Before the goal
   every message goes to the moderator for review; after it, an inappropriate message
   is deleted and its author told, provided moderation is on.
   */
  function OnMessage(db: Option<Db>, env: Env, count: int, chatId: int, messageId: nat, from: int,
                     text: string, score: string -> real): (r: MessageAction)
    ensures r.Ignore? <==> db.None? || !Watched(env, chatId)
    ensures r.SendForReview? <==> db.Some? && Watched(env, chatId) && !Trained(count)
    ensures r.DeleteAndNotify? <==> db.Some? && Watched(env, chatId) && Trained(count)
                                    && Inappropriate(text, score) && db.value.moderate == "yes"
    ensures r.SendForReview? ==>
              r.to == db.value.moderator && RemoveFirst(r.prompt, PromptHeader) == text
              && r.buttons == Keyboard(DecimalString(messageId), None)
    ensures r.DeleteAndNotify? ==> r.messageId == messageId && r.user == from
  {
    if db.None? || !Watched(env, chatId) then Ignore
    else if count >= TrainingGoal then Judge(db.value, messageId, from, text, score)
    else Review(db.value, messageId, text)
  }

  /** A trained bot's verdict on a message, once the network has scored it. */
  function Judge(db: Db, messageId: nat, from: int, text: string, score: string -> real): (r: MessageAction)
    ensures r.DeleteAndNotify? || r.Keep?
    ensures r.DeleteAndNotify? <==> Inappropriate(text, score) && db.moderate == "yes"
    ensures r.DeleteAndNotify? ==> r.messageId == messageId && r.user == from
  {
    if Inappropriate(text, score) && db.moderate == "yes" then DeleteAndNotify(messageId, from)
    else Keep
  }

  /** `reviewMessage`: the prompt with the message's text and unticked buttons, to the moderator. */
  function Review(db: Db, messageId: nat, text: string): (r: MessageAction)
    ensures r.SendForReview? && RemoveFirst(r.prompt, PromptHeader) == text
    ensures r.to == db.moderator && r.buttons == Keyboard(DecimalString(messageId), None)
  {
    PromptRoundTrip(text);
    SendForReview(db.moderator, Prompt(text), Keyboard(DecimalString(messageId), None))
  }

  /**
   The `message` handler as the program runs it. The network is trained only by an
   answer at or past the goal and is not saved, so after a restart with the goal already
   reached it has not been trained (`network` is `None`) and `net.run` throws: the catch
   logs the error and nothing is deleted, not even a message with a link or a mention.
   */
  function OnMessageAsWritten(db: Option<Db>, env: Env, count: int, chatId: int, messageId: nat,
                              from: int, text: string, network: Option<string -> real>): (r: MessageAction)
    ensures network.Some? ==> r == OnMessage(db, env, count, chatId, messageId, from, text, network.value)
    ensures network.None? && db.Some? && Watched(env, chatId) && Trained(count) ==> r == Keep
    ensures r.DeleteAndNotify? ==> network.Some?
  {
    if db.None? || !Watched(env, chatId) then Ignore
    else if count >= TrainingGoal then
      match network
      case None => Keep
      case Some(score) => Judge(db.value, messageId, from, text, score)
    else Review(db.value, messageId, text)
  }

  /**
   After a restart past the goal, a message with a mention is kept even with moderation
   on, although a runnable network would have it deleted.
   */
  lemma MentionKeptAfterRestart(db: Db, env: Env, count: int, chatId: int, messageId: nat, from: int,
                                before: string, name: string, score: string -> real)
    requires Trained(count) && db.moderate == "yes" && Watched(env, chatId)
    requires |name| > 0 && IsWordChar(name[0])
    ensures OnMessageAsWritten(Some(db), env, count, chatId, messageId, from, before + "@" + name, None) == Keep
    ensures OnMessage(Some(db), env, count, chatId, messageId, from, before + "@" + name, score)
         == DeleteAndNotify(messageId, from)
  {
    MentionDeleted(db, env, count, chatId, messageId, from, before, name, score);
  }

  /** With moderation off, the bot never deletes. */
  lemma NoDeletionWhenOff(db: Db, env: Env, count: int, chatId: int, messageId: nat, from: int,
                          text: string, score: string -> real)
    requires db.moderate != "yes"
    ensures !OnMessage(Some(db), env, count, chatId, messageId, from, text, score).DeleteAndNotify?
  {
  }

  /** Before the goal, whether moderation is on makes no difference. */
  lemma ModerateIrrelevantWhileLearning(db: Db, env: Env, count: int, chatId: int, messageId: nat, from: int,
                                        text: string, score: string -> real, state: string)
    requires !Trained(count)
    ensures OnMessage(Some(db), env, count, chatId, messageId, from, text, score)
         == OnMessage(Some(db.(moderate := state)), env, count, chatId, messageId, from, text, score)
  {
  }

  /** A trained bot with moderation on deletes a message with a mention, whatever the network says. */
  lemma MentionDeleted(db: Db, env: Env, count: int, chatId: int, messageId: nat, from: int,
                       before: string, name: string, score: string -> real)
    requires Trained(count) && db.moderate == "yes" && Watched(env, chatId)
    requires |name| > 0 && IsWordChar(name[0])
    ensures OnMessage(Some(db), env, count, chatId, messageId, from, before + "@" + name, score)
         == DeleteAndNotify(messageId, from)
  {
    var s := before + "@" + name;
    assert UsernameAt(s, |before|);
    UsernameIsPresent(s);
  }

  /** The network alone decides for a bare domain: `isLinkPresent` does not see `x.com`. */
  lemma BareDomainLeftToScore(db: Db, env: Env, count: int, chatId: int, messageId: nat, from: int,
                              score: string -> real)
    requires Trained(count) && db.moderate == "yes" && Watched(env, chatId)
    requires score("x.com") >= 0.5
    ensures OnMessage(Some(db), env, count, chatId, messageId, from, "x.com", score) == Keep
  {
    DomainNotPresent();
  }

  /**
   A message sent for review, approved by a moderator or the admin from its prompt, is
   stored under its id with its text and the label 1; rejected, with the label 0.
   */
  lemma ReviewThenAnswer(db: Db, env: Env, count: int, chatId: int, messageId: nat, from: int,
                         text: string, score: string -> real, st: Store, answerer: int, a: Action,
                         delivered: bool)
    requires OnMessage(Some(db), env, count, chatId, messageId, from, text, score).SendForReview?
    requires IsModerator(answerer, db) || IsAdmin(answerer, db)
    ensures var review := OnMessage(Some(db), env, count, chatId, messageId, from, text, score);
            var data := if a == Approve then review.buttons.approveData else review.buttons.rejectData;
            var o := OnAnswer(Some(db), answerer, st, data, review.prompt, delivered);
            o.effect.Labelled?
            && o.store == Upsert(st, Some(DecimalString(messageId)), text, Appropriate(a))
  {
    var id := DecimalString(messageId);
    assert ':' !in id by {
      assert forall k :: 0 <= k < |id| ==> IsDigit(id[k]);
    }
    CallbackRoundTrip(a, id);
  }
  /**
   Telegram numbers messages per chat, and the bot watches two chats. A message in each
   with the same number gets the same buttons, so the answer to the later prompt replaces
   the label of the earlier message in the store.
   */
  lemma ReviewsCollide(db: Db, env: Env, count: int, chat1: int, chat2: int, messageId: nat,
                       from1: int, from2: int, text1: string, text2: string, score: string -> real,
                       st: Store, answerer: int, a1: Action, a2: Action, d1: bool, d2: bool)
    requires OnMessage(Some(db), env, count, chat1, messageId, from1, text1, score).SendForReview?
    requires OnMessage(Some(db), env, count, chat2, messageId, from2, text2, score).SendForReview?
    requires IsModerator(answerer, db) || IsAdmin(answerer, db)
    ensures var r1 := OnMessage(Some(db), env, count, chat1, messageId, from1, text1, score);
            var r2 := OnMessage(Some(db), env, count, chat2, messageId, from2, text2, score);
            var data1 := if a1 == Approve then r1.buttons.approveData else r1.buttons.rejectData;
            var data2 := if a2 == Approve then r2.buttons.approveData else r2.buttons.rejectData;
            var o1 := OnAnswer(Some(db), answerer, st, data1, r1.prompt, d1);
            var o2 := OnAnswer(Some(db), answerer, o1.store, data2, r2.prompt, d2);
            && r1.buttons == r2.buttons
            && o2.store == Upsert(st, Some(DecimalString(messageId)), text2, Appropriate(a2))
  {
    var id := Some(DecimalString(messageId));
    ReviewThenAnswer(db, env, count, chat1, messageId, from1, text1, score, st, answerer, a1, d1);
    var r1 := OnMessage(Some(db), env, count, chat1, messageId, from1, text1, score);
    var data1 := if a1 == Approve then r1.buttons.approveData else r1.buttons.rejectData;
    var o1 := OnAnswer(Some(db), answerer, st, data1, r1.prompt, d1);
    ReviewThenAnswer(db, env, count, chat2, messageId, from2, text2, score, o1.store, answerer, a2, d2);
    SecondUpsertWins(st, id, text1, Appropriate(a1), text2, Appropriate(a2));
  }
}

=== FILE: root_bot.dfy ===
/**
 The root bot of bot.js: each message from the target group or from a private chat
 gets one of three verdicts. A link or username makes it prohibited; otherwise a
 cosine similarity below 0.5 with a fixed reference text makes it dissimilar;
 otherwise it conforms.

 The reference text is Russian, and `\w` without the `u` flag is ASCII-only, so it
 tokenizes to two empty tokens. Its similarity with a message therefore depends only
 on how many empty tokens the message has, that is on whether the message starts or
 ends with whitespace (or has no ASCII word characters at all).
 */
module RootBot {
  import opened Wrappers
  import opened Text
  import opened Tokenizer
  import opened Vectors
  import opened LinkDetector
  import opened Cosine
  import CosineAsWritten
  import CosineLaws

  /** `TARGET_GROUP_ID`. */
  const TargetGroupId: int := -123456789

  /** `REFERENCE_TEXT`, "Это пример правильного сообщения для проверки", written word by word. */
  const ReferenceText: string := "Это " + "пример " + "правильного " + "сообщения " + "для " + "проверки"

  /** `ctx.chat.type`. */
  datatype ChatKind = Private | Group | Supergroup | Channel

  /** Where `handleMessage` says the message came from. */
  datatype Source = FromGroup | FromPrivateChat

  /** The `message` handler's routing: the target group (as a group or a supergroup) and private chats. */
  function Route(kind: ChatKind, chatId: int): (r: Option<Source>)
    ensures r.Some? <==> kind == Private || ((kind == Group || kind == Supergroup) && chatId == TargetGroupId)
    ensures r == Some(FromPrivateChat) <==> kind == Private
  {
    if (kind == Group || kind == Supergroup) && chatId == TargetGroupId then Some(FromGroup)
    else if kind == Private then Some(FromPrivateChat)
    else None
  }

  /** The three replies of `handleMessage`. */
  datatype Verdict = Prohibited(hasLink: bool, hasUsername: bool) | Dissimilar(similarity: Similarity) | Conforming

  /** The verdict, given the detector's report and the similarity with the reference text. */
  function Judge(report: LinkReport, s: Similarity): (v: Verdict)
    ensures v.Prohibited? <==> report.contains
    ensures v.Prohibited? ==> v.hasLink == report.hasLink && v.hasUsername == report.hasUsername
    ensures v.Dissimilar? <==> !report.contains && BelowHalf(s)
    ensures v.Dissimilar? ==> v.similarity == s
    ensures v.Conforming? <==> !report.contains && !BelowHalf(s)
  {
    if report.contains then Prohibited(report.hasLink, report.hasUsername)
    else if BelowHalf(s) then Dissimilar(s)
    else Conforming
  }

  /** `handleMessage`: prohibited content first; the similarity only decides for the rest. */
  function HandleMessage(text: string): (v: Verdict)
    ensures v.Prohibited? <==> ContainsLinksOrUsernames(text).contains
    ensures v.Prohibited? ==> v.hasLink == ContainsLinksOrUsernames(text).hasLink
                              && v.hasUsername == ContainsLinksOrUsernames(text).hasUsername
    ensures v.Dissimilar? <==>
              !ContainsLinksOrUsernames(text).contains && BelowHalf(CosineSimilarity(text, ReferenceText))
    ensures v.Dissimilar? ==> v.similarity == CosineSimilarity(text, ReferenceText)
  {
    Judge(ContainsLinksOrUsernames(text), CosineSimilarity(text, ReferenceText))
  }

  /** `handleMessage` with the similarity as written. */
  function HandleMessageAsWritten(text: string): (v: Verdict)
    ensures v.Prohibited? <==> ContainsLinksOrUsernames(text).contains
    ensures v.Prohibited? ==> v.hasLink == ContainsLinksOrUsernames(text).hasLink
                              && v.hasUsername == ContainsLinksOrUsernames(text).hasUsername
    ensures v.Dissimilar? <==>
              !ContainsLinksOrUsernames(text).contains
              && BelowHalf(CosineAsWritten.CosineSimilarity(text, ReferenceText))
    ensures v.Dissimilar? ==> v.similarity == CosineAsWritten.CosineSimilarity(text, ReferenceText)
  {
    Judge(ContainsLinksOrUsernames(text), CosineAsWritten.CosineSimilarity(text, ReferenceText))
  }

  /** No character of `s` is an ASCII letter, digit or `_`. */
  predicate WordCharFree(s: string)
  {
    forall k :: 0 <= k < |s| ==> !IsWordChar(s[k])
  }

  lemma WordCharFreeConcat(a: string, b: string)
    requires WordCharFree(a) && WordCharFree(b)
    ensures WordCharFree(a + b)
  {
    forall k | 0 <= k < |a + b| ensures !IsWordChar((a + b)[k]) {
      if k >= |a| {
        assert (a + b)[k] == b[k - |a|];
      }
    }
  }

  /** The reference text has no ASCII word character, and its fourth character is a space. */
  lemma ReferenceHasNoWordChars()
    ensures forall k :: 0 <= k < |ReferenceText| ==> !IsWordChar(ReferenceText[k])
    ensures IsSpace(ReferenceText[3])
  {
    assert WordCharFree("Это ");
    assert WordCharFree("пример ");
    assert WordCharFree("правильного ");
    assert WordCharFree("сообщения ");
    assert WordCharFree("для ");
    assert WordCharFree("проверки");
    WordCharFreeConcat("Это ", "пример ");
    WordCharFreeConcat("Это " + "пример ", "правильного ");
    WordCharFreeConcat("Это " + "пример " + "правильного ", "сообщения ");
    WordCharFreeConcat("Это " + "пример " + "правильного " + "сообщения ", "для ");
    WordCharFreeConcat("Это " + "пример " + "правильного " + "сообщения " + "для ", "проверки");
  }

  /** The reference text tokenizes to two empty tokens. */
  lemma ReferenceTokens()
    ensures Tokenize(ReferenceText) == ["", ""]
  {
    ReferenceHasNoWordChars();
    NoWordCharsCollapse(ReferenceText);
  }

  lemma OneEmptyToken()
    ensures TermFrequency([""]) == FrequencyMap([""], map["" := 1])
  {
    assert [""][..0] == [];
  }

  lemma TwoEmptyTokens()
    ensures TermFrequency(["", ""]) == FrequencyMap([""], map["" := 2])
  {
    assert ["", ""][..1] == [""];
    OneEmptyToken();
    assert map["" := 1]["" := 2] == map["" := 2];
  }

  lemma EmptyThenWord(w: string)
    requires w != ""
    ensures TermFrequency(["", w]) == FrequencyMap(["", w], map["" := 1, w := 1])
  {
    assert ["", w][..1] == [""];
    OneEmptyToken();
  }

  lemma DedupEmpties()
    ensures Dedup(["", ""]) == [""]
  {
    assert ["", ""][..1] == [""];
    assert [""][..0] == [];
  }

  lemma DedupWord(w: string)
    requires w != ""
    ensures Dedup(["", w, ""]) == ["", w]
  {
    assert [""][..0] == [];
    assert Dedup([""]) == [""];
    assert ["", w][..1] == [""];
    assert Dedup(["", w]) == ["", w];
    assert ["", w, ""][..2] == ["", w];
  }

  lemma DotOfOne(a: int, b: int)
    ensures Dot([a], [b]) == a * b && SumOfSquares([a]) == a * a
  {
    assert [a][..0] == [] && [b][..0] == [];
  }

  lemma DotOfTwo(a: int, b: int, c: int, d: int)
    ensures Dot([a, b], [c, d]) == a * c + b * d
    ensures SumOfSquares([a, b]) == a * a + b * b
  {
    assert [a, b][..1] == [a] && [c, d][..1] == [c];
    DotOfOne(a, c);
  }

  /** The vector space of one empty token against two. */
  lemma EmptySpace()
    ensures CreateVectorSpace(TermFrequency([""]), TermFrequency(["", ""])) == VectorSpace([""], [1], [2])
  {
    OneEmptyToken();
    TwoEmptyTokens();
    DedupEmpties();
    var f1 := FrequencyMap([""], map["" := 1]);
    var f2 := FrequencyMap([""], map["" := 2]);
    assert f1.keys + f2.keys == ["", ""];
    assert Count(f1, "") == 1 && Count(f2, "") == 2;
    assert Vector(f1, [""]) == [1];
    assert Vector(f2, [""]) == [2];
  }

  /** A lone empty token against the reference: vectors (1) and (2), value 1. */
  lemma EmptyAgainstReference()
    ensures Compare([""], ["", ""]) == Ratio(2, 1, 4)
  {
    EmptySpace();
    CosineLaws.CompareParts([""], ["", ""]);
    DotOfOne(1, 2);
    DotOfOne(2, 2);
  }

  /** The vector space of an empty token and a word against two empty tokens. */
  lemma WordSpace(w: string)
    requires w != ""
    ensures CreateVectorSpace(TermFrequency(["", w]), TermFrequency(["", ""])) == VectorSpace(["", w], [1, 1], [2, 0])
  {
    EmptyThenWord(w);
    TwoEmptyTokens();
    DedupWord(w);
    var f1 := FrequencyMap(["", w], map["" := 1, w := 1]);
    var f2 := FrequencyMap([""], map["" := 2]);
    assert f1.keys + f2.keys == ["", w, ""];
    assert Count(f1, "") == 1 && Count(f1, w) == 1;
    assert Count(f2, "") == 2 && Count(f2, w) == 0;
    VectorOfTwo(f1, "", w);
    VectorOfTwo(f2, "", w);
  }

  lemma VectorOfTwo(f: FrequencyMap, a: string, b: string)
    ensures Vector(f, [a, b]) == [Count(f, a), Count(f, b)]
  {
  }

  /** An empty token and a word against the reference: vectors (1, 1) and (2, 0), value 1/√2. */
  lemma WordAgainstReference(w: string)
    requires w != ""
    ensures Compare(["", w], ["", ""]) == Ratio(2, 2, 4)
  {
    WordSpace(w);
    CosineLaws.CompareParts(["", w], ["", ""]);
    DotOfTwo(1, 1, 2, 0);
    DotOfTwo(2, 0, 2, 0);
  }

  /**
   A message without ASCII letters, digits or `_` (the empty message, or one in
   Cyrillic) always conforms: it has nothing the detector can match, and its tokens
   are the reference's, or a single empty token with the same direction.
   */
  lemma NoAsciiWordsConforms(text: string)
    requires forall k :: 0 <= k < |text| ==> !IsWordChar(text[k])
    ensures HandleMessage(text) == Conforming
  {
    NoWordCharsNothingFound(text);
    NoWordCharsCollapse(text);
    ReferenceTokens();
    var s := CosineSimilarity(text, ReferenceText);
    if Tokenize(text) == ["", ""] {
      CosineLaws.Identical(ReferenceText);
      assert s == CosineSimilarity(ReferenceText, ReferenceText);
    } else {
      EmptyAgainstReference();
      assert s == Ratio(2, 1, 4);
    }
  }

  /**
   A message whose tokens are all words (it starts and ends with an ASCII word
   character once punctuation is gone) shares no token with the reference, so unless
   it is prohibited it is dissimilar, whatever it says.
   */
  lemma AllWordsDissimilar(text: string)
    requires "" !in Tokenize(text)
    requires !ContainsLinksOrUsernames(text).contains
    ensures HandleMessage(text).Dissimilar?
  {
    ReferenceTokens();
    CosineLaws.Disjoint(text, ReferenceText);
  }

  /** One word of token characters is dissimilar, and the same word after a space conforms. */
  lemma LeadingSpaceFlipsVerdict(w: string)
    requires |w| > 0 && forall k :: 0 <= k < |w| ==> IsTokenChar(w[k])
    ensures HandleMessage(w).Dissimilar?
    ensures HandleMessage(" " + w) == Conforming
  {
    WordDissimilar(w);
    SpaceThenWordConforms(w);
  }

  lemma WordDissimilar(w: string)
    requires |w| > 0 && forall k :: 0 <= k < |w| ==> IsTokenChar(w[k])
    ensures HandleMessage(w).Dissimilar?
  {
    TokenizeWord(w);
    NoMarkersNothingFound(w);
    AllWordsDissimilar(w);
  }

  lemma SpaceThenWordConforms(w: string)
    requires |w| > 0 && forall k :: 0 <= k < |w| ==> IsTokenChar(w[k])
    ensures HandleMessage(" " + w) == Conforming
  {
    var s := " " + w;
    assert forall k :: 1 <= k < |s| ==> s[k] == w[k - 1];
    NoMarkersNothingFound(s);
    SpaceThenWordSimilarity(w);
  }

  lemma SpaceThenWordSimilarity(w: string)
    requires |w| > 0 && forall k :: 0 <= k < |w| ==> IsTokenChar(w[k])
    ensures CosineSimilarity(" " + w, ReferenceText) == Ratio(2, 2, 4)
  {
    TokenizeSpaceThenWord(w);
    ReferenceTokens();
    WordAgainstReference(w);
  }

  /**
   The message " constructor" (`w` is the word `constructor`) conforms, but the
   similarity as written is 0 for it (its frequency object inherits `constructor`
   from `Object.prototype`), so the bot as written calls it dissimilar.
   */
  lemma ConstructorMessage(w: string)
    requires w == "constructor"
    ensures HandleMessage(" " + w) == Conforming
    ensures HandleMessageAsWritten(" " + w) == Dissimilar(Zero)
  {
    ConstructorIsOneWord();
    SpaceThenWordConforms(w);
    WordTokenAfterSpace(w);
    CosineAsWritten.ConstructorGivesZero(" " + w, ReferenceText);
  }

  lemma ConstructorIsOneWord()
    ensures forall k :: 0 <= k < |"constructor"| ==> IsTokenChar("constructor"[k])
  {
  }

  /** A word after one space is the second token. */
  lemma WordTokenAfterSpace(w: string)
    requires |w| > 0 && forall k :: 0 <= k < |w| ==> IsTokenChar(w[k])
    ensures w in Tokenize(" " + w)
  {
    TokenizeSpaceThenWord(w);
    assert Tokenize(" " + w)[1] == w;
  }
}

=== FILE: text.dfy ===
/**
 Character classes and string operations of JavaScript, as the detectors and the
 tokenizer use them. Strings are sequences of characters; regular expressions
 without the `u` flag see only the classes defined here.
 */
module Text {

  /** JavaScript's `\s`: the WhiteSpace and LineTerminator characters. */
  predicate IsSpace(c: char)
  {
    || c == ' ' || c == '\t' || c == '\n' || c == '\r' || c == '\U{000B}' || c == '\U{000C}'
    || c == '\U{00A0}' || c == '\U{1680}' || ('\U{2000}' <= c <= '\U{200A}')
    || c == '\U{2028}' || c == '\U{2029}' || c == '\U{202F}' || c == '\U{205F}'
    || c == '\U{3000}' || c == '\U{FEFF}'
  }

  /** JavaScript's `\w` without the `u` flag: `[A-Za-z0-9_]`, ASCII only. */
  predicate IsWordChar(c: char)
  {
    ('a' <= c <= 'z') || ('A' <= c <= 'Z') || ('0' <= c <= '9') || c == '_'
  }

  predicate IsUpperAscii(c: char)
  {
    'A' <= c <= 'Z'
  }

  function LowerChar(c: char): char
  {
    if IsUpperAscii(c) then (c as int + 32) as char else c
  }

  function UpperChar(c: char): char
  {
    if 'a' <= c <= 'z' then (c as int - 32) as char else c
  }

  /** `toLowerCase` restricted to ASCII letters. */
  function LowerAscii(s: string): (r: string)
    ensures |r| == |s|
    ensures forall i :: 0 <= i < |s| ==> r[i] == LowerChar(s[i])
    ensures forall i :: 0 <= i < |r| ==> !IsUpperAscii(r[i])
    ensures forall i :: 0 <= i < |s| && !IsUpperAscii(s[i]) ==> r[i] == s[i]
  {
    seq(|s|, i requires 0 <= i < |s| => LowerChar(s[i]))
  }

  /** `toUpperCase` restricted to ASCII letters. */
  function UpperAscii(s: string): (r: string)
    ensures |r| == |s|
    ensures forall i :: 0 <= i < |s| ==> r[i] == UpperChar(s[i])
  {
    seq(|s|, i requires 0 <= i < |s| => UpperChar(s[i]))
  }

  /** Case folding forgets the case a letter was written in, and keeps word characters word characters. */
  lemma CaseFolding(c: char)
    ensures LowerChar(UpperChar(c)) == LowerChar(c)
    ensures IsWordChar(UpperChar(c)) == IsWordChar(c)
    ensures IsSpace(UpperChar(c)) == IsSpace(c)
    ensures UpperChar(c) == '@' <==> c == '@'
  {
  }

  /**
   The literal `lit`, written in lower case, occurs at position `i` of `s` under the
   `i` flag: ASCII letters match either case, every other character only itself.
   */
  predicate MatchesIgnoringCase(s: string, i: int, lit: string)
  {
    0 <= i && i + |lit| <= |s| && forall k :: 0 <= k < |lit| ==> LowerChar(s[i + k]) == lit[k]
  }

  /** A literal does not match where its first character does not. */
  lemma FirstCharMismatch(s: string, i: int, lit: string)
    requires |lit| > 0 && 0 <= i < |s| && LowerChar(s[i]) != lit[0]
    ensures !MatchesIgnoringCase(s, i, lit)
  {
    assert s[i + 0] == s[i];
  }

  /** Where a literal matches, each of its characters stands at its offset. */
  lemma MatchNeedsChar(s: string, i: int, lit: string, k: int)
    requires 0 <= k < |lit|
    ensures MatchesIgnoringCase(s, i, lit) ==> LowerChar(s[i + k]) == lit[k]
  {
  }

  /** Upper-casing the text does not change where a lower-case literal matches ignoring case. */
  lemma MatchesIgnoringCaseUpper(s: string, i: int, lit: string)
    ensures MatchesIgnoringCase(UpperAscii(s), i, lit) == MatchesIgnoringCase(s, i, lit)
  {
    var u := UpperAscii(s);
    if 0 <= i && i + |lit| <= |s| {
      forall j | i <= j < i + |lit|
        ensures LowerChar(u[j]) == LowerChar(s[j])
      {
        CaseFolding(s[j]);
      }
    }
  }

  /**
   Whether `p` holds at some position in `from..n`. A regular expression without
   anchors matches a text exactly when one of its match conditions holds at some
   position, and this is the left-to-right search for one.
   */
  function AnyPosition(p: int -> bool, from: int, n: int): (r: bool)
    requires from <= n
    ensures r <==> exists j :: from <= j < n && p(j)
    decreases n - from
  {
    if from == n then false else p(from) || AnyPosition(p, from + 1, n)
  }

  /** Position of the first `c` in `s`, or -1 (`String.prototype.indexOf`). */
  function IndexOf(s: string, c: char): (r: int)
    ensures -1 <= r < |s|
    ensures r == -1 <==> c !in s
    ensures 0 <= r ==> s[r] == c && forall k :: 0 <= k < r ==> s[k] != c
  {
    if |s| == 0 then -1
    else if s[0] == c then 0
    else
      var r := IndexOf(s[1..], c);
      if r == -1 then -1 else r + 1
  }

  /** `s.split(sep)` for a one-character separator string. */
  function SplitOn(s: string, sep: char): (parts: seq<string>)
    ensures |parts| >= 1
    ensures forall k :: 0 <= k < |parts| ==> sep !in parts[k]
    ensures Join(parts, sep) == s
    decreases |s|
  {
    var i := IndexOf(s, sep);
    if i == -1 then [s]
    else
      var head := s[..i];
      var rest := SplitOn(s[i + 1..], sep);
      var parts := [head] + rest;
      assert parts[1..] == rest;
      assert sep !in head by {
        forall k | 0 <= k < |head| ensures head[k] != sep { assert head[k] == s[k]; }
      }
      assert Join(parts, sep) == head + [sep] + Join(rest, sep);
      assert s == head + [sep] + s[i + 1..];
      parts
  }

  /** The pieces joined back with the separator between them (`parts.join(sep)`). */
  function Join(parts: seq<string>, sep: char): string
    requires |parts| >= 1
  {
    if |parts| == 1 then parts[0] else parts[0] + [sep] + Join(parts[1..], sep)
  }

  /** Splitting undoes joining whenever no piece contains the separator. */
  lemma {:induction false} SplitJoin(parts: seq<string>, sep: char)
    requires |parts| >= 1
    requires forall k :: 0 <= k < |parts| ==> sep !in parts[k]
    ensures SplitOn(Join(parts, sep), sep) == parts
    decreases |parts|
  {
    var s := Join(parts, sep);
    if |parts| == 1 {
      assert IndexOf(s, sep) == -1;
    } else {
      var p := parts[0];
      var tail := Join(parts[1..], sep);
      assert s == p + [sep] + tail;
      assert s[|p|] == sep;
      assert s[..|p|] == p;
      assert IndexOf(s, sep) == |p| by {
        assert forall k :: 0 <= k < |p| ==> s[k] == p[k];
      }
      assert s[|p| + 1..] == tail;
      SplitJoin(parts[1..], sep);
    }
  }

  /**
   The first two pieces of a split: there are two exactly when the separator occurs; the
   first runs up to it, and the second from just after it up to the next separator or the
   end of the text.
   */
  lemma SplitPieces(s: string, sep: char)
    ensures var i := IndexOf(s, sep);
            var parts := SplitOn(s, sep);
            && (|parts| >= 2 <==> i != -1)
            && parts[0] == (if i == -1 then s else s[..i])
            && (i != -1 ==> parts[1] == UpTo(s[i + 1..], sep))
  {
    SplitOnStep(s, sep);
    var i := IndexOf(s, sep);
    if i != -1 {
      SplitOnStep(s[i + 1..], sep);
    }
  }

  /** The longest prefix of `t` free of `sep`: the text up to the first separator, or all of it. */
  function UpTo(t: string, sep: char): (p: string)
    ensures |p| <= |t| && p == t[..|p|] && sep !in p
    ensures |p| == |t| || t[|p|] == sep
  {
    var j := IndexOf(t, sep);
    if j == -1 then t else t[..j]
  }

  /** The text up to its first `sep` at `i`, that separator and the next piece begin the text. */
  lemma FirstTwoPieces(s: string, sep: char, i: int)
    requires 0 <= i < |s| && s[i] == sep
    requires forall k :: 0 <= k < i ==> s[k] != sep
    ensures sep !in s[..i]
    ensures var n := i + 1 + |UpTo(s[i + 1..], sep)|;
            n <= |s| && s[..n] == s[..i] + [sep] + UpTo(s[i + 1..], sep) && (n == |s| || s[n] == sep)
  {
    var p := UpTo(s[i + 1..], sep);
    var n := i + 1 + |p|;
    assert sep !in s[..i] by {
      forall k | 0 <= k < i ensures s[..i][k] != sep { assert s[..i][k] == s[k]; }
    }
    assert s[..n] == s[..i] + [sep] + p by {
      assert s[i + 1..n] == p;
      assert s[..n] == s[..i] + s[i..i + 1] + s[i + 1..n];
    }
  }

  /** One step of the split: the text up to the first separator, then the split of the rest. */
  lemma SplitOnStep(s: string, sep: char)
    ensures var i := IndexOf(s, sep);
            SplitOn(s, sep) == if i == -1 then [s] else [s[..i]] + SplitOn(s[i + 1..], sep)
  {
  }

  /** `pat` occurs in `s` starting at position `j`. */
  predicate OccursAt(s: string, pat: string, j: int)
  {
    0 <= j && j + |pat| <= |s| && s[j..j + |pat|] == pat
  }

  /** Position of the first occurrence of `pat` in `s`, or -1. */
  function FindFirst(s: string, pat: string): (r: int)
    ensures -1 <= r <= |s|
    ensures 0 <= r ==> OccursAt(s, pat, r)
    ensures r < 0 ==> forall j :: !OccursAt(s, pat, j)
    ensures 0 <= r ==> forall j :: j < r ==> !OccursAt(s, pat, j)
  {
    FindFirstFrom(s, pat, 0)
  }

  function FindFirstFrom(s: string, pat: string, from: nat): (r: int)
    requires from <= |s| + 1
    requires forall j :: j < from ==> !OccursAt(s, pat, j)
    ensures -1 <= r <= |s|
    ensures 0 <= r ==> OccursAt(s, pat, r)
    ensures r < 0 ==> forall j :: !OccursAt(s, pat, j)
    ensures 0 <= r ==> forall j :: j < r ==> !OccursAt(s, pat, j)
    decreases |s| + 1 - from
  {
    if from + |pat| > |s| then -1
    else if s[from..from + |pat|] == pat then from
    else FindFirstFrom(s, pat, from + 1)
  }

  /** `s.replace(pat, "")` with a string pattern: only the first occurrence is removed. */
  function RemoveFirst(s: string, pat: string): (r: string)
    ensures FindFirst(s, pat) < 0 ==> r == s
    ensures FindFirst(s, pat) >= 0 ==> |r| == |s| - |pat|
  {
    var i := FindFirst(s, pat);
    if i < 0 then s else s[..i] + s[i + |pat|..]
  }

  /**
   Cutting `s` at the first occurrence of `pat` and removing it: when `pat` first occurs
   right after `a`, the result is what came before it followed by what came after it.
   */
  lemma RemoveFirstAt(a: string, pat: string, b: string)
    requires forall j :: 0 <= j < |a| ==> !OccursAt(a + pat + b, pat, j)
    ensures RemoveFirst(a + pat + b, pat) == a + b
  {
    var s := a + pat + b;
    assert s[|a|..|a| + |pat|] == pat;
    assert OccursAt(s, pat, |a|);
    var i := FindFirst(s, pat);
    assert i == |a|;
    assert s[..i] == a;
    assert s[i + |pat|..] == b;
  }

  /** Removing the first occurrence of a prefix gives back what followed it. */
  lemma RemovePrefix(pat: string, t: string)
    ensures RemoveFirst(pat + t, pat) == t
  {
    var s := pat + t;
    assert OccursAt(s, pat, 0);
    assert FindFirst(s, pat) == 0;
  }

  predicate IsDigit(c: char)
  {
    '0' <= c <= '9'
  }

  /** The decimal notation of a non-negative integer, as template-literal interpolation prints it. */
  function DecimalString(n: nat): (r: string)
    ensures |r| >= 1
    ensures forall k :: 0 <= k < |r| ==> IsDigit(r[k])
    ensures DecimalValue(r) == n
  {
    if n < 10 then [('0' as int + n) as char]
    else
      var prefix := DecimalString(n / 10);
      var r := prefix + [('0' as int + n % 10) as char];
      assert r[..|r| - 1] == prefix;
      r
  }

  /** The number a string of decimal digits denotes. */
  function DecimalValue(s: string): nat
    requires forall k :: 0 <= k < |s| ==> IsDigit(s[k])
  {
    if |s| == 0 then 0
    else DecimalValue(s[..|s| - 1]) * 10 + DigitValue(s[|s| - 1])
  }

  function DigitValue(c: char): nat
    requires IsDigit(c)
  {
    c as int - '0' as int
  }
}

=== FILE: tokenizer.dfy ===
/**
 `tokenize` of cosine-similarity.js: lower-case the text, delete every character
 that is neither `\w` nor `\s`, and split on runs of whitespace.
 */
module Tokenizer {
  import opened Text

  /** The characters `.replace(/[^\w\s]/g, '')` keeps. */
  predicate Kept(c: char)
  {
    IsWordChar(c) || IsSpace(c)
  }

  /** The characters a token can be made of: lower-case ASCII `\w`. */
  predicate IsTokenChar(c: char)
  {
    ('a' <= c <= 'z') || ('0' <= c <= '9') || c == '_'
  }

  predicate NoSpace(t: string)
  {
    forall k :: 0 <= k < |t| ==> !IsSpace(t[k])
  }

  /** `.replace(/[^\w\s]/g, '')`. */
  function StripPunctuation(s: string): (r: string)
    ensures forall k :: 0 <= k < |r| ==> Kept(r[k]) && r[k] in s
  {
    if |s| == 0 then []
    else
      var init := s[..|s| - 1];
      var c := s[|s| - 1];
      assert s == init + [c];
      var rest := StripPunctuation(init);
      if Kept(c) then rest + [c] else rest
  }

  /** Each kept character stays as often as it occurs; the others are gone. */
  lemma {:induction false} StripCounts(s: string)
    ensures forall c :: multiset(StripPunctuation(s))[c] == if Kept(c) then multiset(s)[c] else 0
  {
    if |s| > 0 {
      var init := s[..|s| - 1];
      var c := s[|s| - 1];
      assert s == init + [c];
      StripCounts(init);
      assert multiset(s) == multiset(init) + multiset{c};
    }
  }

  /** The text with its whitespace removed: what the tokens, put together, spell. */
  function RemoveSpaces(s: string): (r: string)
    ensures forall k :: 0 <= k < |r| ==> !IsSpace(r[k]) && r[k] in s
  {
    if |s| == 0 then []
    else (if IsSpace(s[0]) then [] else [s[0]]) + RemoveSpaces(s[1..])
  }

  /** The tokens put back together. */
  function Concat(ts: seq<string>): string
  {
    if |ts| == 0 then [] else ts[0] + Concat(ts[1..])
  }

  /** The text after a leading run of whitespace. */
  function SkipSpaces(s: string): (r: string)
    ensures |r| <= |s| && r == s[|s| - |r|..]
    ensures forall k :: 0 <= k < |s| - |r| ==> IsSpace(s[k])
    ensures |r| > 0 ==> !IsSpace(r[0])
    ensures RemoveSpaces(r) == RemoveSpaces(s)
  {
    if |s| > 0 && IsSpace(s[0]) then
      var t := s[1..];
      var r := SkipSpaces(t);
      assert t[|t| - |r|..] == s[|s| - |r|..];
      assert forall k :: 1 <= k < |s| ==> s[k] == t[k - 1];
      assert RemoveSpaces(s) == RemoveSpaces(t);
      r
    else s
  }

  /**
   `r` is how the split loop cuts `s` when it has already read `cur` of the current
   token: the pieces hold no whitespace and spell `cur` and then `s` without its
   whitespace; the first piece is empty exactly when nothing has been read and `s`
   is empty or starts with whitespace, the last exactly when the input ends in
   whitespace or is empty; no piece in between is empty.
   */
  ghost predicate Splits(s: string, cur: string, r: seq<string>)
  {
    && |r| >= 1
    && (forall k :: 0 <= k < |r| ==> NoSpace(r[k]))
    && Concat(r) == cur + RemoveSpaces(s)
    && (r[0] == "" <==> cur == "" && (|s| == 0 || IsSpace(s[0])))
    && (r[|r| - 1] == "" <==> if |s| == 0 then cur == "" else IsSpace(s[|s| - 1]))
    && (forall k :: 0 < k < |r| - 1 ==> r[k] != "")
  }

  /**
   The split loop: `cur` is the token being read. A whitespace run ends it; the end
   of the text ends the last one, which is empty when the text ends in whitespace.
   */
  function SplitFrom(s: string, cur: string): (r: seq<string>)
    requires NoSpace(cur)
    ensures Splits(s, cur, r)
    decreases |s|
  {
    if |s| == 0 then
      assert Concat([cur]) == cur + RemoveSpaces(s);
      [cur]
    else if IsSpace(s[0]) then
      var t := SkipSpaces(s);
      var rest := SplitFrom(t, "");
      assert |t| > 0 ==> t[|t| - 1] == s[|s| - 1];
      assert t == [] ==> rest == [""];
      SplitAtSpace(s, t, cur, rest);
      [cur] + rest
    else
      var rest := SplitFrom(s[1..], cur + [s[0]]);
      SplitInsideToken(s, cur, rest);
      rest
  }

  /** At a whitespace run the token read so far is complete, and the rest is split afresh. */
  lemma SplitAtSpace(s: string, t: string, cur: string, rest: seq<string>)
    requires NoSpace(cur) && |s| > 0 && IsSpace(s[0])
    requires |t| > 0 ==> !IsSpace(t[0]) && t[|t| - 1] == s[|s| - 1]
    requires |t| == 0 ==> IsSpace(s[|s| - 1]) && rest == [""]
    requires Splits(t, "", rest)
    requires RemoveSpaces(t) == RemoveSpaces(s)
    ensures Splits(s, cur, [cur] + rest)
  {
    SpaceStepPieces(s, t, cur, rest);
    SpaceStepLast(s, t, cur, rest);
    ConcatCons(cur, rest, RemoveSpaces(s));
  }

  lemma SpaceStepPieces(s: string, t: string, cur: string, rest: seq<string>)
    requires NoSpace(cur) && |s| > 0 && IsSpace(s[0])
    requires |t| > 0 ==> !IsSpace(t[0]) && t[|t| - 1] == s[|s| - 1]
    requires |t| == 0 ==> IsSpace(s[|s| - 1]) && rest == [""]
    requires Splits(t, "", rest)
    ensures var r := [cur] + rest;
            (forall k :: 0 <= k < |r| ==> NoSpace(r[k])) && (forall k :: 0 < k < |r| - 1 ==> r[k] != "")
  {
    var r := [cur] + rest;
    forall k | 0 < k < |r| ensures r[k] == rest[k - 1] {
    }
  }

  lemma SpaceStepLast(s: string, t: string, cur: string, rest: seq<string>)
    requires NoSpace(cur) && |s| > 0 && IsSpace(s[0])
    requires |t| > 0 ==> !IsSpace(t[0]) && t[|t| - 1] == s[|s| - 1]
    requires |t| == 0 ==> IsSpace(s[|s| - 1]) && rest == [""]
    requires Splits(t, "", rest)
    ensures var r := [cur] + rest;
            (r[0] == "" <==> cur == "") && (r[|r| - 1] == "" <==> IsSpace(s[|s| - 1]))
  {
    var r := [cur] + rest;
    assert r[0] == cur;
    assert r[|r| - 1] == rest[|rest| - 1];
  }

  /** A piece before pieces that spell `u` (after an empty token read) spells itself and then `u`. */
  lemma ConcatCons(t: string, ts: seq<string>, u: string)
    requires |ts| >= 1 && Concat(ts) == "" + u
    ensures Concat([t] + ts) == t + u
  {
    assert ([t] + ts)[1..] == ts;
    assert "" + u == u;
  }

  /** Inside a token the next character extends it. */
  lemma SplitInsideToken(s: string, cur: string, rest: seq<string>)
    requires NoSpace(cur) && |s| > 0 && !IsSpace(s[0])
    requires Splits(s[1..], cur + [s[0]], rest)
    ensures Splits(s, cur, rest)
  {
    assert RemoveSpaces(s) == [s[0]] + RemoveSpaces(s[1..]);
    assert (cur + [s[0]])[|cur|] == s[0];
    assert cur + [s[0]] + RemoveSpaces(s[1..]) == cur + RemoveSpaces(s);
    if |s| > 1 {
      assert s[1..][|s| - 2] == s[|s| - 1];
    }
  }

  /**
   `.split(/\s+/)`. The pieces hold no whitespace and spell the text without its
   whitespace; the first piece is empty exactly when the text is empty or starts
   with whitespace, the last exactly when it is empty or ends with whitespace, and
   no piece in between is empty.
   */
  function SplitWhitespace(s: string): (r: seq<string>)
    ensures |r| >= 1
    ensures forall k :: 0 <= k < |r| ==> NoSpace(r[k])
    ensures Concat(r) == RemoveSpaces(s)
    ensures r[0] == "" <==> |s| == 0 || IsSpace(s[0])
    ensures r[|r| - 1] == "" <==> |s| == 0 || IsSpace(s[|s| - 1])
    ensures forall k :: 0 < k < |r| - 1 ==> r[k] != ""
  {
    SplitFrom(s, "")
  }

  /** Every character of a piece occurs in the pieces put together. */
  lemma {:induction false} InConcat(ts: seq<string>, k: int, c: char)
    requires 0 <= k < |ts| && c in ts[k]
    ensures c in Concat(ts)
  {
    if k > 0 {
      InConcat(ts[1..], k - 1, c);
    }
  }

  /** `tokenize`. */
  function Tokenize(text: string): (r: seq<string>)
    ensures |r| >= 1
    ensures forall k :: 0 <= k < |r| ==> forall j :: 0 <= j < |r[k]| ==> IsTokenChar(r[k][j])
  {
    var lowered := LowerAscii(text);
    var stripped := StripPunctuation(lowered);
    var r := SplitWhitespace(stripped);
    assert forall k, j :: 0 <= k < |r| && 0 <= j < |r[k]| ==> IsTokenChar(r[k][j]) by {
      forall k, j | 0 <= k < |r| && 0 <= j < |r[k]| ensures IsTokenChar(r[k][j]) {
        var c := r[k][j];
        InConcat(r, k, c);
        assert c in stripped && !IsSpace(c);
        assert c in lowered;
        var i :| 0 <= i < |lowered| && lowered[i] == c;
        assert c == LowerChar(text[i]);
      }
    }
    r
  }

  /** Whitespace alone is skipped entirely. */
  lemma {:induction false} SkipAllSpaces(s: string)
    requires forall k :: 0 <= k < |s| ==> IsSpace(s[k])
    ensures SkipSpaces(s) == []
  {
    if |s| > 0 {
      assert forall k :: 0 <= k < |s| - 1 ==> s[1..][k] == s[k + 1];
      SkipAllSpaces(s[1..]);
    }
  }

  /** A text of whitespace alone splits into one empty piece when it is empty, and into two otherwise. */
  lemma SplitOfWhitespace(s: string)
    requires forall k :: 0 <= k < |s| ==> IsSpace(s[k])
    ensures SplitWhitespace(s) == if |s| == 0 then [""] else ["", ""]
  {
    if |s| > 0 {
      SkipAllSpaces(s);
    }
  }

  /**
   `\w` is ASCII-only, so a text without ASCII letters, digits or `_` (Cyrillic text,
   for one) loses everything but its whitespace: it tokenizes to `[""]`, or to
   `["", ""]` when it contains whitespace.
   */
  lemma NoWordCharsCollapse(text: string)
    requires forall k :: 0 <= k < |text| ==> !IsWordChar(text[k])
    ensures Tokenize(text) == if exists k :: 0 <= k < |text| && IsSpace(text[k]) then ["", ""] else [""]
  {
    var lowered := LowerAscii(text);
    var stripped := StripPunctuation(lowered);
    assert forall k :: 0 <= k < |text| ==> lowered[k] == text[k];
    forall k | 0 <= k < |stripped| ensures IsSpace(stripped[k]) {
      assert stripped[k] in lowered;
    }
    SplitOfWhitespace(stripped);
    StripCounts(lowered);
    assert |stripped| > 0 ==> stripped[0] in lowered;
    if exists k :: 0 <= k < |text| && IsSpace(text[k]) {
      var k :| 0 <= k < |text| && IsSpace(text[k]);
      assert multiset(lowered)[text[k]] > 0;
      assert |stripped| > 0;
    }
  }

  /** Deleting characters that are all kept deletes nothing. */
  lemma {:induction false} StripAllKept(s: string)
    requires forall k :: 0 <= k < |s| ==> Kept(s[k])
    ensures StripPunctuation(s) == s
  {
    if |s| > 0 {
      var init, c := s[..|s| - 1], s[|s| - 1];
      assert forall k :: 0 <= k < |init| ==> init[k] == s[k];
      assert s == init + [c];
      StripAllKept(init);
      StripStep(init, c);
    }
  }

  /** One more character is kept or dropped on its own. */
  lemma StripStep(init: string, c: char)
    ensures StripPunctuation(init + [c]) == StripPunctuation(init) + if Kept(c) then [c] else []
  {
    assert (init + [c])[..|init|] == init;
  }

  /** Without whitespace there is nothing to split on: the token read so far runs to the end. */
  lemma {:induction false} SplitNoSpace(s: string, cur: string)
    requires NoSpace(cur) && NoSpace(s)
    ensures SplitFrom(s, cur) == [cur + s]
    decreases |s|
  {
    if |s| > 0 {
      assert !IsSpace(s[0]);
      var cur' := cur + [s[0]];
      assert NoSpace(cur') by {
        assert forall k :: 0 <= k < |cur| ==> cur'[k] == cur[k];
      }
      assert SplitFrom(s, cur) == SplitFrom(s[1..], cur');
      SplitNoSpace(s[1..], cur');
      assert cur' + s[1..] == cur + s;
    } else {
      assert cur + s == cur;
    }
  }

  /** A text of token characters and spaces is only split. */
  lemma TokenizePlain(s: string)
    requires forall k :: 0 <= k < |s| ==> IsTokenChar(s[k]) || s[k] == ' '
    ensures Tokenize(s) == SplitWhitespace(s)
  {
    LowerTokenChars(s);
    StripAllKept(s);
  }

  /** A word of token characters is its own single token. */
  lemma TokenizeWord(w: string)
    requires |w| > 0
    requires forall k :: 0 <= k < |w| ==> IsTokenChar(w[k])
    ensures Tokenize(w) == [w]
  {
    TokenizePlain(w);
    LowerTokenChars(w);
    SplitNoSpace(w, "");
    assert "" + w == w;
  }

  /** Lower-casing leaves token characters and spaces alone. */
  lemma LowerTokenChars(s: string)
    requires forall k :: 0 <= k < |s| ==> IsTokenChar(s[k]) || s[k] == ' '
    ensures LowerAscii(s) == s
    ensures forall k :: 0 <= k < |s| ==> Kept(s[k])
    ensures (forall k :: 0 <= k < |s| ==> IsTokenChar(s[k])) ==> NoSpace(s)
  {
  }

  /** A space before a word of token characters puts an empty token before it. */
  lemma TokenizeSpaceThenWord(w: string)
    requires |w| > 0
    requires forall k :: 0 <= k < |w| ==> IsTokenChar(w[k])
    ensures Tokenize(" " + w) == ["", w]
  {
    var s := " " + w;
    assert forall k :: 1 <= k < |s| ==> s[k] == w[k - 1];
    TokenizePlain(s);
    LowerTokenChars(w);
    SplitSpaceThenWord(w);
  }

  lemma SplitSpaceThenWord(w: string)
    requires |w| > 0 && NoSpace(w)
    ensures SplitWhitespace(" " + w) == ["", w]
  {
    var s := " " + w;
    SpaceThenWord(w);
    SplitFromSpace(s, "");
    SplitNoSpace(w, "");
    EmptyThen(w);
  }

  /** At a space the current token is closed and the split goes on after the run of spaces. */
  lemma SplitFromSpace(s: string, cur: string)
    requires NoSpace(cur) && |s| > 0 && IsSpace(s[0])
    ensures SplitFrom(s, cur) == [cur] + SplitFrom(SkipSpaces(s), "")
  {
  }
  /** Deleting characters works piecewise: the order of what is kept is the order of the text. */
  lemma {:induction false} StripConcat(a: string, b: string)
    ensures StripPunctuation(a + b) == StripPunctuation(a) + StripPunctuation(b)
    decreases |b|
  {
    if |b| == 0 {
      assert a + b == a;
    } else {
      var init, c := b[..|b| - 1], b[|b| - 1];
      assert b == init + [c];
      assert a + b == (a + init) + [c];
      StripStep(a + init, c);
      StripStep(init, c);
      StripConcat(a, init);
    }
  }

  /**
   Splitting undoes joining with single spaces: words that are non-empty and free of
   whitespace come back as they were.
   */
  lemma SplitJoinWords(ws: seq<string>)
    requires |ws| >= 1
    requires forall k :: 0 <= k < |ws| ==> ws[k] != "" && NoSpace(ws[k])
    ensures SplitWhitespace(Join(ws, ' ')) == ws
  {
    SplitJoinFrom(ws, "");
    EmptyThen(ws[0]);
    HeadTail(ws);
  }

  lemma EmptyThen(w: string)
    ensures "" + w == w
  {
  }

  lemma HeadTail<T>(xs: seq<T>)
    requires |xs| >= 1
    ensures [xs[0]] + xs[1..] == xs
  {
  }

  /** The split of joined words, with `cur` read before them. */
  lemma {:induction false} SplitJoinFrom(ws: seq<string>, cur: string)
    requires |ws| >= 1 && NoSpace(cur)
    requires forall k :: 0 <= k < |ws| ==> ws[k] != "" && NoSpace(ws[k])
    ensures SplitFrom(Join(ws, ' '), cur) == [cur + ws[0]] + ws[1..]
    decreases |ws|
  {
    if |ws| == 1 {
      SplitNoSpace(ws[0], cur);
    } else {
      var rest := Join(ws[1..], ' ');
      var t := [' '] + rest;
      var cur' := cur + ws[0];
      NoSpaceConcat(cur, ws[0]);
      JoinStep(ws);
      SplitThroughWord(ws[0], t, cur);
      JoinStart(ws[1..]);
      SpaceThenWord(rest);
      SplitFromSpace(t, cur');
      SplitJoinFrom(ws[1..], "");
      EmptyThen(ws[1]);
      HeadTail(ws[1..]);
    }
  }

  /** Joining puts the first word, a space, and the rest joined. */
  lemma JoinStep(ws: seq<string>)
    requires |ws| >= 2
    ensures Join(ws, ' ') == ws[0] + ([' '] + Join(ws[1..], ' '))
  {
  }

  lemma NoSpaceConcat(a: string, b: string)
    requires NoSpace(a) && NoSpace(b)
    ensures NoSpace(a + b)
  {
    assert forall k :: 0 <= k < |a| ==> (a + b)[k] == a[k];
    assert forall k :: |a| <= k < |a + b| ==> (a + b)[k] == b[k - |a|];
  }

  /** A single space before text that starts with a non-space is skipped. */
  lemma SpaceThenWord(t: string)
    requires |t| > 0 && !IsSpace(t[0])
    ensures SkipSpaces([' '] + t) == t
  {
    assert ([' '] + t)[1..] == t;
  }

  /** Reading a word without whitespace only extends the token being read. */
  lemma {:induction false} SplitThroughWord(w: string, t: string, cur: string)
    requires NoSpace(cur) && NoSpace(w)
    ensures SplitFrom(w + t, cur) == SplitFrom(t, cur + w)
    decreases |w|
  {
    if |w| == 0 {
      assert w + t == t;
      assert cur + w == cur;
    } else {
      var cur' := cur + [w[0]];
      NoSpaceConcat(cur, [w[0]]);
      FirstOff(w, t, cur);
      assert SplitFrom(w + t, cur) == SplitFrom(w[1..] + t, cur');
      SplitThroughWord(w[1..], t, cur');
    }
  }

  /** Taking the first letter off a word and onto the token read so far. */
  lemma FirstOff(w: string, t: string, cur: string)
    requires |w| > 0
    ensures (w + t)[0] == w[0] && (w + t)[1..] == w[1..] + t
    ensures (cur + [w[0]]) + w[1..] == cur + w
  {
  }

  /** Joined words start with the first letter of the first word. */
  lemma JoinStart(ws: seq<string>)
    requires |ws| >= 1 && ws[0] != ""
    ensures |Join(ws, ' ')| > 0 && Join(ws, ' ')[0] == ws[0][0]
  {
  }
  /** Every character is `\s`: a run of whitespace, or nothing. */
  predicate AllSpace(t: string)
  {
    forall k :: 0 <= k < |t| ==> IsSpace(t[k])
  }

  /** The words with the runs of whitespace `seps` between them: `seps[i]` follows `ws[i]`. */
  function Interleave(ws: seq<string>, seps: seq<string>): string
    requires |ws| >= 1 && |seps| == |ws| - 1
  {
    if |ws| == 1 then ws[0] else ws[0] + seps[0] + Interleave(ws[1..], seps[1..])
  }

  /** A text made of words and whitespace runs, each word non-empty and each run non-empty. */
  predicate Layout(ws: seq<string>, seps: seq<string>)
  {
    && |ws| >= 1 && |seps| == |ws| - 1
    && (forall k :: 0 <= k < |ws| ==> ws[k] != "" && NoSpace(ws[k]))
    && (forall k :: 0 <= k < |seps| ==> seps[k] != "" && AllSpace(seps[k]))
  }

  /**
   `split(/\s+/)` cuts exactly at the whitespace runs, whatever whitespace characters they
   hold and however long they are: the words come back as they were, with an empty piece
   first when whitespace leads the text and an empty piece last when whitespace ends it.
   */
  lemma SplitRuns(lead: string, ws: seq<string>, seps: seq<string>, trail: string)
    requires Layout(ws, seps) && AllSpace(lead) && AllSpace(trail)
    ensures SplitWhitespace(lead + Interleave(ws, seps) + trail)
         == (if lead == "" then [] else [""]) + ws + (if trail == "" then [] else [""])
  {
    var body := Interleave(ws, seps) + trail;
    var head: seq<string> := if lead == "" then [] else [""];
    var tail: seq<string> := if trail == "" then [] else [""];
    assert SplitFrom(body, "") == ws + tail by {
      SplitWordsFrom(ws, seps, trail, "");
      FreshStart(ws, tail);
    }
    assert SplitFrom(lead + body, "") == head + SplitFrom(body, "") by {
      InterleaveStart(ws, seps, trail);
      SplitAfterLead(lead, body, ws[0][0]);
    }
    Associate(lead, Interleave(ws, seps), trail);
    Associate3(head, ws, tail);
  }

  /** A leading whitespace run adds one empty piece before the split of the rest. */
  lemma SplitAfterLead(lead: string, body: string, c: char)
    requires AllSpace(lead) && |body| > 0 && body[0] == c && !IsSpace(c)
    ensures SplitFrom(lead + body, "") == (if lead == "" then [] else [""]) + SplitFrom(body, "")
  {
    if lead == "" {
      EmptyThen(body);
      assert [] + SplitFrom(body, "") == SplitFrom(body, "");
    } else {
      SplitAfterRun(lead, body, "");
    }
  }

  /** Reading from nothing, the first word is the first piece. */
  lemma FreshStart(ws: seq<string>, tail: seq<string>)
    requires |ws| >= 1
    ensures ["" + ws[0]] + ws[1..] + tail == ws + tail
  {
    EmptyThen(ws[0]);
    HeadTail(ws);
  }

  /** The words and runs read after `cur`, then the trailing run. */
  lemma {:induction false} SplitWordsFrom(ws: seq<string>, seps: seq<string>, trail: string, cur: string)
    requires Layout(ws, seps) && AllSpace(trail) && NoSpace(cur)
    ensures SplitFrom(Interleave(ws, seps) + trail, cur)
         == [cur + ws[0]] + ws[1..] + (if trail == "" then [] else [""])
    decreases |ws|
  {
    if |ws| == 1 {
      SplitLastWord(ws[0], trail, cur);
      assert [cur + ws[0]] + ws[1..] == [cur + ws[0]];
    } else {
      SplitWordsStep(ws, seps, trail, cur);
      assert Layout(ws[1..], seps[1..]);
      SplitWordsFrom(ws[1..], seps[1..], trail, "");
      FreshStart(ws[1..], if trail == "" then [] else [""]);
      Associate3([cur + ws[0]], ws[1..], if trail == "" then [] else [""]);
    }
  }

  /** The last word, then the trailing run: one empty piece more when the run is not empty. */
  lemma SplitLastWord(w: string, trail: string, cur: string)
    requires NoSpace(cur) && NoSpace(w) && AllSpace(trail)
    ensures SplitFrom(w + trail, cur) == [cur + w] + (if trail == "" then [] else [""])
  {
    NoSpaceConcat(cur, w);
    SplitThroughWord(w, trail, cur);
    if trail == "" {
      SplitEnd(cur + w);
    } else {
      SplitTrailingRun(trail, cur + w);
    }
  }

  /** At the end of the text the token read so far is the last piece. */
  lemma SplitEnd(cur: string)
    requires NoSpace(cur)
    ensures SplitFrom("", cur) == [cur] + []
  {
  }

  /** A trailing whitespace run closes the token read so far and leaves one empty piece. */
  lemma SplitTrailingRun(trail: string, cur: string)
    requires NoSpace(cur) && trail != "" && AllSpace(trail)
    ensures SplitFrom(trail, cur) == [cur] + [""]
  {
    assert trail + "" == trail;
    SplitAfterRun(trail, "", cur);
  }

  /** A word and the run after it close the token read so far; the rest is split afresh. */
  lemma SplitWordsStep(ws: seq<string>, seps: seq<string>, trail: string, cur: string)
    requires Layout(ws, seps) && |ws| >= 2 && NoSpace(cur)
    ensures SplitFrom(Interleave(ws, seps) + trail, cur)
         == [cur + ws[0]] + SplitFrom(Interleave(ws[1..], seps[1..]) + trail, "")
  {
    var rest := Interleave(ws[1..], seps[1..]) + trail;
    NoSpaceConcat(cur, ws[0]);
    InterleaveStep(ws, seps, trail);
    SplitThroughWord(ws[0], seps[0] + rest, cur);
    assert Layout(ws[1..], seps[1..]);
    InterleaveStart(ws[1..], seps[1..], trail);
    SplitAfterRun(seps[0], rest, cur + ws[0]);
  }

  /** After a non-empty whitespace run, the token read so far is complete and the split starts afresh. */
  lemma SplitAfterRun(run: string, rest: string, cur: string)
    requires NoSpace(cur) && run != "" && AllSpace(run)
    requires |rest| == 0 || !IsSpace(rest[0])
    ensures SplitFrom(run + rest, cur) == [cur] + SplitFrom(rest, "")
  {
    assert (run + rest)[0] == run[0];
    SplitFromSpace(run + rest, cur);
    SkipRun(run, rest);
  }

  /** A whitespace run is skipped entirely when a non-space, or the end, follows it. */
  lemma {:induction false} SkipRun(run: string, rest: string)
    requires AllSpace(run)
    requires |rest| == 0 || !IsSpace(rest[0])
    ensures SkipSpaces(run + rest) == rest
    decreases |run|
  {
    if |run| == 0 {
      assert run + rest == rest;
    } else {
      assert (run + rest)[0] == run[0];
      assert (run + rest)[1..] == run[1..] + rest;
      assert AllSpace(run[1..]);
      SkipRun(run[1..], rest);
    }
  }

  /** The text of words starts with the first letter of the first word. */
  lemma InterleaveStart(ws: seq<string>, seps: seq<string>, trail: string)
    requires Layout(ws, seps)
    ensures |Interleave(ws, seps) + trail| > 0 && (Interleave(ws, seps) + trail)[0] == ws[0][0]
  {
  }

  lemma InterleaveStep(ws: seq<string>, seps: seq<string>, trail: string)
    requires |ws| >= 2 && |seps| == |ws| - 1
    ensures Interleave(ws, seps) + trail == ws[0] + (seps[0] + (Interleave(ws[1..], seps[1..]) + trail))
  {
  }

  lemma Associate(a: string, b: string, c: string)
    ensures a + b + c == a + (b + c)
  {
  }

  lemma Associate3<T>(a: seq<T>, b: seq<T>, c: seq<T>)
    ensures a + (b + c) == a + b + c
  {
  }
}

=== FILE: training_store.dfy ===
/**
 The training examples of src/bot.js: the `trainingData` array with its
 `addOrUpdateTrainingData` upsert, keyed by `messageId` alone, and the
 `trainingCount` counter that the upsert bumps only when it appends.
 */
module TrainingStore {
  import opened Wrappers

  /**
   One training example: `{ messageId, input: { text }, output: { appropriate } }`.
   The id is the string taken from the callback data, absent (`undefined`) when the
   data had no colon.
   */
  datatype Record = Record(messageId: Option<string>, text: string, appropriate: int)

  /** `trainingData` and `trainingCount`. */
  datatype Store = Store(records: seq<Record>, count: int)

  /** `trainingCount` counts the records. */
  predicate Counted(st: Store)
  {
    st.count == |st.records|
  }

  /** No two records share an id. */
  ghost predicate DistinctIds(records: seq<Record>)
  {
    forall i, j :: 0 <= i < j < |records| ==> records[i].messageId != records[j].messageId
  }

  /**
   The loaded file: the parsed JSON when it is an array, and nothing otherwise (a
   missing file, a parse error or another JSON value all give the empty array).
   `trainingCount` starts at the array's length.
   */
  function Load(parsed: Option<seq<Record>>): (st: Store)
    ensures Counted(st)
    ensures parsed.Some? ==> st.records == parsed.value
    ensures parsed.None? ==> st.records == []
  {
    var records := if parsed.Some? then parsed.value else [];
    Store(records, |records|)
  }

  /** `trainingData.findIndex(record => record.messageId === messageId)`. */
  function FindIndex(records: seq<Record>, id: Option<string>): (r: int)
    ensures -1 <= r < |records|
    ensures r == -1 <==> forall i :: 0 <= i < |records| ==> records[i].messageId != id
    ensures 0 <= r ==> records[r].messageId == id
                       && forall i :: 0 <= i < r ==> records[i].messageId != id
  {
    if |records| == 0 then -1
    else if records[0].messageId == id then 0
    else
      var r := FindIndex(records[1..], id);
      if r == -1 then -1 else r + 1
  }

  /** `addOrUpdateTrainingData`: replace the record with this id in place, or append one and count it. */
  function Upsert(st: Store, id: Option<string>, text: string, appropriate: int): (r: Store)
    ensures var rec := Record(id, text, appropriate);
            var i := FindIndex(st.records, id);
            if i >= 0 then
              |r.records| == |st.records| && r.count == st.count
              && r.records[i] == rec
              && forall j :: 0 <= j < |st.records| && j != i ==> r.records[j] == st.records[j]
            else
              r.records == st.records + [rec] && r.count == st.count + 1
    ensures r.count == if exists i :: 0 <= i < |st.records| && st.records[i].messageId == id
                       then st.count else st.count + 1
    ensures Counted(st) ==> Counted(r)
  {
    var rec := Record(id, text, appropriate);
    var i := FindIndex(st.records, id);
    if i > -1 then Store(st.records[i := rec], st.count)
    else Store(st.records + [rec], st.count + 1)
  }

  /**
   With distinct ids beforehand, the ids stay distinct and exactly one record has
   the upserted id: the one carrying the new text and label.
   */
  lemma UpsertUnique(st: Store, id: Option<string>, text: string, appropriate: int)
    requires DistinctIds(st.records)
    ensures var r := Upsert(st, id, text, appropriate);
            DistinctIds(r.records)
            && exists i :: 0 <= i < |r.records| && r.records[i] == Record(id, text, appropriate)
  {
    var r := Upsert(st, id, text, appropriate);
    var i := FindIndex(st.records, id);
    if i >= 0 {
      assert r.records[i] == Record(id, text, appropriate);
    } else {
      assert r.records[|st.records|] == Record(id, text, appropriate);
    }
  }

  /** Upserting the same id twice leaves what one upsert with the second text and label leaves. */
  lemma SecondUpsertWins(st: Store, id: Option<string>, t1: string, a1: int, t2: string, a2: int)
    ensures Upsert(Upsert(st, id, t1, a1), id, t2, a2) == Upsert(st, id, t2, a2)
  {
    var mid := Upsert(st, id, t1, a1);
    var i := FindIndex(st.records, id);
    if i >= 0 {
      assert FindIndex(mid.records, id) == i;
      assert mid.records[i := Record(id, t2, a2)] == st.records[i := Record(id, t2, a2)];
    } else {
      assert mid.records[|st.records|].messageId == id;
      assert forall j :: 0 <= j < |st.records| ==> mid.records[j] == st.records[j];
      assert FindIndex(mid.records, id) == |st.records|;
      assert (st.records + [Record(id, t1, a1)])[|st.records| := Record(id, t2, a2)]
          == st.records + [Record(id, t2, a2)];
    }
  }

  /** One labelled example, as a callback delivers it. */
  datatype Label = Label(id: Option<string>, text: string, appropriate: int)

  /** The store after a run of upserts, in order. */
  function UpsertAll(st: Store, labels: seq<Label>): Store
  {
    if |labels| == 0 then st
    else
      var l := labels[|labels| - 1];
      Upsert(UpsertAll(st, labels[..|labels| - 1]), l.id, l.text, l.appropriate)
  }

  /**
   Starting from a loaded file, any run of upserts keeps `trainingCount == |trainingData|`,
   never lowers the count and grows it by at most one per upsert.
   */
  lemma {:induction false} CountedAlways(parsed: Option<seq<Record>>, labels: seq<Label>)
    ensures var st := Load(parsed);
            var r := UpsertAll(st, labels);
            Counted(r) && st.count <= r.count <= st.count + |labels|
    decreases |labels|
  {
    if |labels| > 0 {
      CountedAlways(parsed, labels[..|labels| - 1]);
    }
  }
}

=== FILE: vectors.dfy ===
/**
 The arithmetic behind the cosine similarity: ordered sets of words, sums over them,
 dot products and squared magnitudes of integer vectors. The JavaScript `reduce`
 calls fold from the left, so every sum here adds its last element last.
 */
module Vectors {

  ghost predicate Distinct<T>(s: seq<T>)
  {
    forall i, j :: 0 <= i < j < |s| ==> s[i] != s[j]
  }

  /** A JavaScript `Set` built from `s`: each value once, in order of first insertion. */
  function Dedup<T(==,!new)>(s: seq<T>): (r: seq<T>)
    ensures Distinct(r)
    ensures forall x :: x in r <==> x in s
  {
    if |s| == 0 then []
    else
      var d := Dedup(s[..|s| - 1]);
      var x := s[|s| - 1];
      assert s == s[..|s| - 1] + [x];
      if x in d then d else d + [x]
  }

  /** Values that are already distinct go into the `Set` in their own order. */
  lemma {:induction false} DedupOfDistinct<T(!new)>(s: seq<T>)
    requires Distinct(s)
    ensures Dedup(s) == s
    decreases |s|
  {
    if |s| > 0 {
      var init := s[..|s| - 1];
      DedupOfDistinct(init);
      assert s[|s| - 1] !in init;
      assert s == init + [s[|s| - 1]];
    }
  }

  /** `f` summed over `ws`. */
  function SumBy<T>(ws: seq<T>, f: T -> int): int
  {
    if |ws| == 0 then 0 else SumBy(ws[..|ws| - 1], f) + f(ws[|ws| - 1])
  }

  /** `dotProduct`: `vector1.reduce((sum, value, i) => sum + value * vector2[i], 0)`. */
  function Dot(a: seq<int>, b: seq<int>): (r: int)
    requires |a| == |b|
    ensures (forall i :: 0 <= i < |a| ==> 0 <= a[i] && 0 <= b[i]) ==> 0 <= r
    ensures (forall i :: 0 <= i < |a| ==> a[i] == 0 || b[i] == 0) ==> r == 0
  {
    if |a| == 0 then 0 else Dot(a[..|a| - 1], b[..|b| - 1]) + a[|a| - 1] * b[|b| - 1]
  }

  /** The square of `magnitude`: `vector.reduce((sum, value) => sum + value ** 2, 0)`. */
  function SumOfSquares(a: seq<int>): (r: int)
    ensures 0 <= r
    ensures r == 0 <==> forall i :: 0 <= i < |a| ==> a[i] == 0
  {
    if |a| == 0 then 0 else SumOfSquares(a[..|a| - 1]) + a[|a| - 1] * a[|a| - 1]
  }

  lemma {:induction false} SumByConcat<T>(p: seq<T>, q: seq<T>, f: T -> int)
    ensures SumBy(p + q, f) == SumBy(p, f) + SumBy(q, f)
    decreases |q|
  {
    if |q| == 0 {
      assert p + q == p;
    } else {
      var q' := q[..|q| - 1];
      assert (p + q)[..|p + q| - 1] == p + q';
      assert (p + q)[|p + q| - 1] == q[|q| - 1];
      SumByConcat(p, q', f);
    }
  }

  /** Sums of functions that agree on the words agree. */
  lemma {:induction false} SumByPointwise<T>(ws: seq<T>, f: T -> int, g: T -> int)
    requires forall k :: 0 <= k < |ws| ==> f(ws[k]) == g(ws[k])
    ensures SumBy(ws, f) == SumBy(ws, g)
    decreases |ws|
  {
    if |ws| > 0 {
      SumByPointwise(ws[..|ws| - 1], f, g);
    }
  }

  /** Removing the element at `k` keeps a sequence distinct and removes just that value. */
  lemma RemoveAt<T>(b: seq<T>, k: int)
    requires Distinct(b) && 0 <= k < |b|
    ensures Distinct(b[..k] + b[k + 1..])
    ensures forall y :: y in b[..k] + b[k + 1..] <==> y in b && y != b[k]
  {
    var b' := b[..k] + b[k + 1..];
    forall i, j | 0 <= i < j < |b'| ensures b'[i] != b'[j] {
      var i0 := if i < k then i else i + 1;
      var j0 := if j < k then j else j + 1;
      assert b'[i] == b[i0] && b'[j] == b[j0];
    }
    forall y ensures y in b' <==> y in b && y != b[k] {
      if y in b && y != b[k] {
        var i :| 0 <= i < |b| && b[i] == y;
        if i < k { assert b'[i] == y; } else { assert b'[i - 1] == y; }
      }
      if y in b' {
        var i :| 0 <= i < |b'| && b'[i] == y;
        var i0 := if i < k then i else i + 1;
        assert b[i0] == y && i0 != k;
      }
    }
  }

  /** Taking the element at `k` out of a sum. */
  lemma {:induction false} SumByWithout<T>(b: seq<T>, k: int, f: T -> int)
    requires 0 <= k < |b|
    ensures SumBy(b, f) == SumBy(b[..k] + b[k + 1..], f) + f(b[k])
    decreases |b|
  {
    var init := b[..|b| - 1];
    if k == |b| - 1 {
      assert b[..k] + b[k + 1..] == init;
    } else {
      SumByWithout(init, k, f);
      var rest := init[..k] + init[k + 1..];
      assert b[..k] + b[k + 1..] == rest + [b[|b| - 1]];
      assert (rest + [b[|b| - 1]])[..|rest|] == rest;
      assert init[k] == b[k];
    }
  }

  /** Raising one term of a sum over distinct elements by 1 raises the sum by 1. */
  lemma SumByBump<T>(ws: seq<T>, k: int, f: T -> int, g: T -> int)
    requires Distinct(ws) && 0 <= k < |ws|
    requires forall w :: w != ws[k] ==> g(w) == f(w)
    requires g(ws[k]) == f(ws[k]) + 1
    ensures SumBy(ws, g) == SumBy(ws, f) + 1
  {
    var rest := ws[..k] + ws[k + 1..];
    RemoveAt(ws, k);
    SumByPointwise(rest, g, f);
    SumByWithout(ws, k, g);
    SumByWithout(ws, k, f);
  }

  /** Dropping the last element of a distinct sequence removes exactly that value. */
  lemma DropLast<T>(a: seq<T>)
    requires Distinct(a) && |a| > 0
    ensures Distinct(a[..|a| - 1])
    ensures forall y :: y in a[..|a| - 1] <==> y in a && y != a[|a| - 1]
  {
    var a' := a[..|a| - 1];
    forall y ensures y in a' <==> y in a && y != a[|a| - 1] {
      if y in a' {
        var i :| 0 <= i < |a'| && a'[i] == y;
        assert a[i] == y && i != |a| - 1;
      }
      if y in a && y != a[|a| - 1] {
        var i :| 0 <= i < |a| && a[i] == y;
        assert a'[i] == y;
      }
    }
  }

  lemma NonEmptyHasMember<T>(b: seq<T>)
    ensures |b| > 0 ==> b[0] in b
  {
  }

  /** A sum over an ordered set does not depend on the order. */
  lemma {:induction false} SumByPermutation<T>(a: seq<T>, b: seq<T>, f: T -> int)
    requires Distinct(a) && Distinct(b)
    requires forall x :: x in a <==> x in b
    ensures SumBy(a, f) == SumBy(b, f)
    decreases |a|
  {
    if |a| == 0 {
      NonEmptyHasMember(b);
    } else {
      var a' := a[..|a| - 1];
      var x := a[|a| - 1];
      assert x in b;
      var k :| 0 <= k < |b| && b[k] == x;
      var b' := b[..k] + b[k + 1..];
      RemoveAt(b, k);
      DropLast(a);
      forall y ensures y in a' <==> y in b' {
        assert y in a <==> y in b;
      }
      SumByPermutation(a', b', f);
      SumByWithout(b, k, f);
    }
  }

  /** A sum of non-negative terms is non-negative. */
  lemma {:induction false} SumByNonNegative<T>(ws: seq<T>, f: T -> int)
    requires forall k :: 0 <= k < |ws| ==> f(ws[k]) >= 0
    ensures SumBy(ws, f) >= 0
    decreases |ws|
  {
    if |ws| > 0 {
      SumByNonNegative(ws[..|ws| - 1], f);
    }
  }

  lemma ProductNonNegative(u: int, v: int)
    requires 0 <= u && 0 <= v
    ensures 0 <= u * v
  {
  }

  lemma SquareNonNegative(u: int)
    ensures 0 <= u * u
  {
    if u < 0 {
      ProductNonNegative(-u, -u);
    } else {
      ProductNonNegative(u, u);
    }
  }

  /** Multiplying by `A` and completing the square: the algebra behind the cross-term bound. */
  lemma CrossTermIdentity(d: int, A: int, B: int, x: int, y: int)
    ensures A * (A * (y * y) + B * (x * x) - 2 * d * x * y)
            == (A * y - d * x) * (A * y - d * x) + (A * B - d * d) * (x * x)
  {
  }

  lemma PositiveFactor(A: int, z: int)
    requires 0 < A && 0 <= A * z
    ensures 0 <= z
  {
    if z < 0 {
      ProductNonNegative(A, -z);
    }
  }

  /** The step of Cauchy-Schwarz: `2·d·x·y <= A·y² + B·x²` whenever `d² <= A·B`. */
  lemma CrossTermBound(d: int, A: int, B: int, x: int, y: int)
    requires 0 <= A && 0 <= B && d * d <= A * B
    ensures 2 * d * x * y <= A * (y * y) + B * (x * x)
  {
    SquareNonNegative(x);
    SquareNonNegative(y);
    SquareNonNegative(d);
    if A == 0 {
      assert d * d <= 0;
      assert d == 0;
      ProductNonNegative(B, x * x);
    } else {
      CrossTermIdentity(d, A, B, x, y);
      SquareNonNegative(A * y - d * x);
      ProductNonNegative(A * B - d * d, x * x);
      PositiveFactor(A, A * (y * y) + B * (x * x) - 2 * d * x * y);
    }
  }

  /** Adding one coordinate keeps the Cauchy-Schwarz inequality, given the cross-term bound. */
  lemma CauchySchwarzStep(d: int, A: int, B: int, p: int, X: int, Y: int)
    requires d * d <= A * B
    requires 2 * d * p <= A * Y + B * X
    requires p * p == X * Y
    ensures (d + p) * (d + p) <= (A + X) * (B + Y)
  {
    ProductOfSums(d, p, d, p);
    ProductOfSums(A, X, B, Y);
    assert p * d == d * p;
  }

  lemma ProductOfSums(a: int, b: int, c: int, e: int)
    ensures (a + b) * (c + e) == a * c + a * e + b * c + b * e
  {
    assert (a + b) * (c + e) == a * (c + e) + b * (c + e);
  }

  /** Cauchy-Schwarz for integer vectors: `dot² <= |a|²·|b|²`. */
  lemma {:induction false} CauchySchwarz(a: seq<int>, b: seq<int>)
    requires |a| == |b|
    ensures Dot(a, b) * Dot(a, b) <= SumOfSquares(a) * SumOfSquares(b)
    decreases |a|
  {
    if |a| > 0 {
      var a' := a[..|a| - 1];
      var b' := b[..|b| - 1];
      var x := a[|a| - 1];
      var y := b[|b| - 1];
      var d, A, B := Dot(a', b'), SumOfSquares(a'), SumOfSquares(b');
      CauchySchwarz(a', b');
      CrossTermBound(d, A, B, x, y);
      Regroup(d, x, y);
      CauchySchwarzStep(d, A, B, x * y, x * x, y * y);
    }
  }

  lemma Regroup(d: int, x: int, y: int)
    ensures (x * y) * (x * y) == (x * x) * (y * y)
    ensures 2 * d * (x * y) == 2 * d * x * y
  {
    assert (x * y) * (x * y) == x * (y * (x * y));
  }

  /** A vector's dot product with itself is its squared magnitude. */
  lemma {:induction false} DotSelf(a: seq<int>)
    ensures Dot(a, a) == SumOfSquares(a)
    decreases |a|
  {
    if |a| > 0 {
      DotSelf(a[..|a| - 1]);
    }
  }

  /** The dot product does not depend on the order of its arguments. */
  lemma {:induction false} DotSymmetric(a: seq<int>, b: seq<int>)
    requires |a| == |b|
    ensures Dot(a, b) == Dot(b, a)
    decreases |a|
  {
    if |a| > 0 {
      DotSymmetric(a[..|a| - 1], b[..|b| - 1]);
    }
  }
}

=== FILE: wrappers.dfy ===
/** The optional-value type used wherever the source has `undefined`, `null` or `NaN`. */
module Wrappers {

  datatype Option<+T> = None | Some(value: T) {

    /** Returns the value in Some, or `default` for None (JavaScript's `x || default` on a present value). */
    function GetOr(default: T): T
    {
      match this
      case Some(v) => v
      case None() => default
    }
  }
}
